=== FILE: README.md ===
# cryoEF plugin core, modelled in Dafny

This project models the core of the Scipion plugin for cryoEF. cryoEF is a
program that rates how well a set of particle projection orientations covers
the sphere. The plugin's work for one run has four parts:

- it writes each particle's rotation and tilt angles to a text file
  (`input_angles.dat`);
- it assembles cryoEF's command-line flags from the protocol parameters;
- after cryoEF has run, it scans cryoEF's log for five statistics
  (efficiency, and mean, standard deviation, worst and best PSF resolution);
- it turns those statistics into the protocol's summary lines.

The modules follow the source:

| module | file | models |
|---|---|---|
| `Results` | results.dfy | `Option` and `Result`, used for Python's missing values and exceptions |
| `Text` | text.dfy | Python's `str.split()`, `in` on strings, `' '.join`, text-mode line iteration, and `str(int)` |
| `Particles` | particles.dfy | a particle: its box size and its Euler angles |
| `Files` | files.dfy | the protocol's file-name templates |
| `LogParser` | log_parser.dfy | `parseOutput` |
| `AnglesFile` | angles_file.dfy | `writeAnglesFn`, `convertInputStep` and `iterAngles` |
| `CryoEfArgs` | cryoef_args.dfy | `_getArgs`, and the parameter string `runCryoEFStep` builds from it |
| `ProtocolSummary` | protocol_summary.dfy | `_summary` |

The file system is modelled as contents:

- A log file is `Option<seq<string>>`: the lines a text-mode read yields, or
  `None` when the file does not exist.
- The angles file read by `iterAngles` is its raw content. `Text.ReadText`
  applies Python's universal-newline translation (`\r\n` and a lone `\r`
  become `\n`) before the content is cut into lines.
- An append-mode file is `Option<string>`: its prior content, or `None`.

Float formatting (`"%0.6f"`, `str(float)`, `"%0.2f"`) and `float()` are
parameters of the functions that use them.

The docstring of `parseOutput` (cryoef/convert.py:33-34) lists the five
statistics in chain order, the order in which the `elif` chain tries their
markers. The code returns the values in the order of the log's lines. It stops
at the first line whose first matching pattern is "Best PSF resolution",
whether or not the other four statistics have been seen.

This model follows the code. `LogParser.LineOrderExample` and
`ProtocolSummary.EarlyBestLineSummary` show a log whose values do not come
back in chain order. `_summary` labels the values by position, so its labels
are right only when the log lists the statistics in chain order.

cryoEF's log itself is not part of the repository. The lemmas about whole
logs (`LogParser.WellFormedLog` and the examples) describe a statistic line as
`LogParser.StatLine`: the marker's label, one space, a printed number and a
newline. The label is the marker's pattern, with a colon added to "Best PSF
resolution". Any other line of such a log is arbitrary as long as it holds none
of the five patterns.

## Model

| member | source | states |
|---|---|---|
| LogParser.Classify | cryoef/convert.py:40-48 | a line counts for the first marker, in elif order, whose pattern it contains; it counts for no marker exactly when it contains none of the five patterns |
| LogParser.ClassifiedAs | cryoef/convert.py:40-48 | conversely, a line containing a marker's pattern and no earlier pattern counts for that marker |
| LogParser.WordAt | cryoef/convert.py:41-49 | the word taken from a marker line is `split()[i]` for the marker's index (1, 3, 2, 3, 3) and is one whitespace-free word; it is missing, so IndexError is raised, exactly when the line has too few words |
| LogParser.ParseLines | cryoef/convert.py:39-50 | the scan yields no more words than the log has lines, and every word is a whitespace-free token; `LogParser.ParseLinesReading` shows it takes at most one word from each marker line |
| LogParser.ParseOutput | cryoef/convert.py:36-37 | a log file that does not exist gives an empty result, not an error |
| LogParser.ScanLog | cryoef/convert.py:36-52 | the imperative line loop with its `break` computes the same result as the recursive scan |
| LogParser.FirstStop | cryoef/convert.py:48-50 | the position of the line that ends the scan is the first line classified as best resolution |
| LogParser.MarkerLines | cryoef/convert.py:40-49 | a line is a marker line exactly when it is among the given lines and contains one of the five patterns; `LogParser.ParseLinesReading` applies this to the lines the scan reads |
| LogParser.MarkerLinesAppend | cryoef/convert.py:39-49 | the marker lines keep file order: those of two consecutive parts of a log are the first part's followed by the second's |
| LogParser.TakeWordsSpec | cryoef/convert.py:41-49 | taking the words from the marker lines succeeds exactly when every marker line has enough words, and gives one word per line, in order |
| LogParser.ParseLinesReading | cryoef/convert.py:36-52 | the scan equals an independent reading: cut the log after its first best-resolution line, keep the marker lines, take each one's word, and raise IndexError if any line is too short |
| LogParser.UnmarkedLineIgnored | cryoef/convert.py:40-49 | a line containing none of the five patterns can be removed without changing the result |
| LogParser.LinesAfterStopIgnored | cryoef/convert.py:48-50 | nothing after the first best-resolution line affects the result |
| LogParser.ScanEndsAtFirstStop | cryoef/convert.py:48-50 | the result depends only on the lines up to and including the first best-resolution line |
| LogParser.StopWordIsLast | cryoef/convert.py:48-50 | when the log has a best-resolution line and the scan succeeds, the best resolution is the last value returned |
| LogParser.StatLineMarker | cryoef/convert.py:40-48 | a statistic line (its label, a space, a printed number) counts for its own marker, although "resolution:" lines share words with one another |
| LogParser.StatLineWord | cryoef/convert.py:41-49 | the word the scan takes from a statistic line is exactly its printed number, for every marker's word index |
| LogParser.UnmarkedPrefixIgnored | cryoef/convert.py:39-40 | any number of lines without a marker in front of the log do not change the result |
| LogParser.WellFormedLog | cryoef/convert.py:32-52 | a log made of unmarked lines, then the five statistic lines in chain order, then anything, gives exactly the five printed values in that order; whatever follows the best-resolution line is not read |
| LogParser.LineOrderExample | cryoef/convert.py:40-50 | values come back in line order: for any printed numbers, a best-resolution line before an efficiency line ends the scan with only the best resolution |
| LogParser.ShortLineExample | cryoef/convert.py:40-49 | a statistic label with no value after it raises IndexError, for each of the five markers, whatever lines follow |
| Files.FileNameWord | cryoef/protocols/protocol_cryoef.py:56-65 | in a run directory whose path has no whitespace, every template's file name is one command-line word |
| Files.FileNamesDistinct | cryoef/protocols/protocol_cryoef.py:58-65 | the six templates name six different files |
| AnglesFile.AngleLine | cryoef/convert.py:62-66 | the written line ends with a newline, and is one complete line exactly when neither formatted angle contains a newline |
| AnglesFile.AngleLineWords | cryoef/convert.py:62-66 | each particle's line is one newline-terminated line whose words are its formatted rotation and tilt; psi is dropped |
| AnglesFile.WriteAnglesLines | cryoef/convert.py:62-66 | writing a set of particles produces exactly one line per particle, in iteration order |
| AnglesFile.ConvertInput | cryoef/protocols/protocol_cryoef.py:119-125 | append mode keeps any earlier content of the file as a prefix, followed by exactly the text the run writes; a new file holds only that text, which `AnglesFile.WriteAnglesLines` shows is one line per particle |
| AnglesFile.AppendAngles | cryoef/protocols/protocol_cryoef.py:119-125 | the loop with one write per particle yields the same content as the functional definition |
| AnglesFile.ConvertInputAppends | cryoef/protocols/protocol_cryoef.py:123-125 | when the earlier content is empty or ends with a newline, as a previous run leaves it (`AnglesFile.WriteAnglesEndsLine`), the file's lines are its earlier lines followed by one line per particle |
| AnglesFile.RerunDuplicatesLines | cryoef/protocols/protocol_cryoef.py:123-125 | running the conversion twice in the same directory lists every particle twice |
| AnglesFile.ReadAngleLine | cryoef/convert.py:58 | a line reads as a pair exactly when it has two words that both parse as floats. Because `map` is lazy, the first of the first three words that `float` rejects is the error. When those words all parse, fewer than two words is "not enough values" with the count, and more than two is "too many values" |
| AnglesFile.ReadLines | cryoef/convert.py:55-59 | the generator yields one pair per line, in order, up to the first line that fails, and stops with that line's error |
| AnglesFile.IterAngles | cryoef/convert.py:55-59 | reading a file yields one pair per line, in order, for the lines before the first one that cannot be read; it ends with no error exactly when every line was read, and otherwise with that line's error |
| AnglesFile.IterAnglesLineEnds | cryoef/convert.py:56-57 | a lone `\r` or a `\r\n` ends a line just as `\n` does, because the file is opened in text mode |
| AnglesFile.ReadBackWritten | cryoef/convert.py:55-66 | reading back a written file gives, for every particle in order, its rotation and tilt as `float` reads back their formatted text, with no error, provided `float` accepts what the format writes |
| CryoEfArgs.Keys | cryoef/protocols/protocol_cryoef.py:181-190 | the dictionary's keys, in insertion order |
| CryoEfArgs.Lookup | cryoef/protocols/protocol_cryoef.py:181-190 | a key is found exactly when it is among the keys |
| CryoEfArgs.GetArgs | cryoef/protocols/protocol_cryoef.py:179-192 | seven flags are always present, in order; `-r` is added last exactly when FSCres is not -1, and it then holds FSCres; an empty particle set makes the call fail |
| CryoEfArgs.GetArgsValues | cryoef/protocols/protocol_cryoef.py:181-188 | each flag's value: the angles file, the first particle's box size, the accuracy, the B-factor, the diameter and the tilt; the symmetry group is used when it is set, and `c1` when it is empty or unset |
| CryoEfArgs.FlagWords | cryoef/protocols/protocol_cryoef.py:130 | each flag's text followed by its rendered value, 2n texts for n entries; `CryoEfArgs.ParamStringWords` shows they are the words of the parameter string when every value is one word |
| CryoEfArgs.ParamString | cryoef/protocols/protocol_cryoef.py:130 | joining the `"key value"` entries with spaces gives every key and value, alternating, joined by single spaces |
| CryoEfArgs.ParamStringWords | cryoef/protocols/protocol_cryoef.py:130 | when every value is one word, splitting the joined parameter string recovers each flag followed by its value |
| CryoEfArgs.CommandLineWords | cryoef/protocols/protocol_cryoef.py:127-130 | the command line has 16 words when FSCres is given and 14 otherwise |
| ProtocolSummary.SummaryLogPath | cryoef/protocols/protocol_cryoef.py:61 | the log `_summary` reads (line 160) is the file the `output_log` template names |
| ProtocolSummary.ToFloats | cryoef/convert.py:52 | converting the words succeeds exactly when every word is a float, and keeps the order; otherwise it fails on the first bad word |
| ProtocolSummary.Summary | cryoef/protocols/protocol_cryoef.py:156-170 | without output the summary is "Output is not ready yet."; otherwise it succeeds exactly when the log gives exactly five float values, and labels them in order. An IndexError from the scan escapes as itself, and a word `float` rejects raises that word's ValueError, the first such word in order. A missing log, or any other number of convertible values, fails to unpack |
| ProtocolSummary.ReportLines | cryoef/protocols/protocol_cryoef.py:161-166 | five lines; the k-th unpacked value is reported under the label of the k-th statistic in chain order |
| ProtocolSummary.ReportLineNamesStatistic | cryoef/protocols/protocol_cryoef.py:162-166 | summary lines for different statistics never coincide: a line tells which statistic it reports |
| ProtocolSummary.CompleteLogSummary | cryoef/protocols/protocol_cryoef.py:159-166 | a well-formed cryoEF log whose five values all convert to floats yields the five report lines, with the values in chain order |
| ProtocolSummary.CompleteLogLabels | cryoef/protocols/protocol_cryoef.py:159-166 | for such a log, the value printed on each statistic's line is reported under that statistic's own label |
| ProtocolSummary.EarlyBestLineSummary | cryoef/protocols/protocol_cryoef.py:159-161 | a log whose best-resolution line comes before its efficiency line fails to unpack, because the scan returned one value |
| Text.Split | cryoef/convert.py:58 | `split()` returns non-empty words free of whitespace, no more of them than the line has characters |
| Text.SplitToken | cryoef/convert.py:58 | a word followed by whitespace or by the end of the text is the first word `split()` returns, and the rest is split alone |
| Text.SplitAppendSpace | cryoef/convert.py:41 | the newline that ends a line read from a file changes none of its words |
| Text.ReadText | cryoef/convert.py:56-57 | text-mode reading leaves no carriage return and never lengthens the content |
| Text.ReadTextPlain | cryoef/convert.py:56-57 | content without carriage returns, such as the angles file the plugin writes, is read unchanged |
| Text.CarriageReturnEndsLine | cryoef/convert.py:56-57 | after reading, a lone `\r` and a `\r\n` are both the same newline as `\n` |
| Text.SplitLinesShape | cryoef/convert.py:57 | `for line in f` yields lines that have no newline before their end, and every line but the last is complete |
| Text.ConcatSplitLines | cryoef/convert.py:57 | the lines read, put back together, are the whole text |
| Text.SplitJoin | cryoef/protocols/protocol_cryoef.py:130 | splitting words joined with single spaces gives the words back |
| Text.ContainsIff | cryoef/convert.py:40 | the substring test holds exactly when the pattern occurs at some position |
| Text.IntToStringRoundTrip | cryoef/protocols/protocol_cryoef.py:130 | `str` of an int is one word and reads back as the same int |

## Left out

- `geometryFromMatrix` and the transform matrices: they are floating-point linear algebra through numpy. A particle carries its Euler angles directly.
- Float formatting and parsing (`"%0.6f"`, `"%0.2f"`, `str(float)`, `float()`): these are parameters. The round trips assume the format writes one word and that `float` reads it back.
- `parseOutput` returns a lazy `map(float, ...)`. `ParseOutput` returns the words; the conversion is `ProtocolSummary.ToFloats`, applied where `_summary` forces the map with `list(...)`.
- `runJob`, `Plugin.getProgram` and the environment: running cryoEF is outside the model. The model stops at the parameter string.
- `_getExtraPath`: modelled as the run directory, `/`, and the name. The host framework's directory layout is not part of this model.
- `_defineParams`, `createOutputStep`, `_validate` (which always returns no errors), and the viewers are not part of this model. Output registration is a boolean input of `Summary`.
- CryoEfArgs.GetArgs: parameters are always set. An unset `IntParam` (None in Python) is not modelled. An empty set failing on `getFirstItem()` is modelled as `NoParticles`.
- CryoEfArgs.CommandLineWords: the word count assumes no whitespace inside the run directory or the symmetry group. Python would split such values into more words.
- Reading a file is modelled by its content. Opening errors other than a missing log, and encodings, are not modelled. The log is given as the lines a text-mode read yields, so its newline translation is not modelled separately.
- The exact layout of cryoEF's log lines: the whole-log lemmas assume the `StatLine` shape. The scan itself is modelled for every line.

=== FILE: angles_file.dfy ===
/** The angles file exchanged with cryoEF: one line per particle holding its
    rotation and tilt, written by `writeAnglesFn` inside the append-mode loop
    of `convertInputStep`, and read back by `iterAngles`. Formatting a float
    (`"%0.6f"`) and parsing one (`float(...)`) are passed in as functions. */
module AnglesFile {

  import opened Results
  import opened Text
  import opened Particles

  /** `fmt` writes every angle as one word, as `"%0.6f"` does. */
  ghost predicate WritesWords(fmt: real -> string) {
    forall x :: IsToken(fmt(x))
  }

  /** `writeAnglesFn` for one particle: rotation and tilt separated by one
      space, then a newline; the in-plane angle is not written. */
  function AngleLine(fmt: real -> string, a: EulerAngles): (r: string)
    ensures |r| > 0 && r[|r| - 1] == '\n'
    ensures IsLine(r) <==> '\n' !in fmt(a.rot) && '\n' !in fmt(a.tilt)
  {
    LineOfTwo(fmt(a.rot), fmt(a.tilt));
    fmt(a.rot) + " " + fmt(a.tilt) + "\n"
  }

  /** Two texts separated by a space and ended by a newline make one complete
      line exactly when neither text has a newline of its own. */
  lemma LineOfTwo(x: string, y: string)
    ensures IsLine(x + " " + y + "\n") <==> '\n' !in x && '\n' !in y
  {
    var line := x + " " + y + "\n";
    if '\n' in x {
      var i :| 0 <= i < |x| && x[i] == '\n';
      assert line[i] == x[i];
    } else if '\n' in y {
      var i :| 0 <= i < |y| && y[i] == '\n';
      assert line[|x| + 1 + i] == y[i];
    } else {
      forall i | 0 <= i < |line| - 1
        ensures line[i] != '\n'
      {
        if i < |x| {
          assert line[i] == x[i];
        } else if i > |x| {
          assert line[i] == y[i - |x| - 1];
        }
      }
    }
  }

  /** The lines written for the particles, in iteration order. */
  function AngleLines(fmt: real -> string, ps: seq<Particle>): seq<string> {
    seq(|ps|, i requires 0 <= i < |ps| => AngleLine(fmt, ps[i].angles))
  }

  /** The text one run of the conversion loop writes. */
  function WriteAngles(fmt: real -> string, ps: seq<Particle>): string {
    Concat(AngleLines(fmt, ps))
  }

  /** The content of the angles file after `convertInputStep`. The file is
      opened in append mode: `None` stands for a file that does not exist yet
      (append creates it empty). */
  function ConvertInput(fmt: real -> string, existing: Option<string>, ps: seq<Particle>): (r: string)
    ensures existing.Some? ==> |existing.value| <= |r| && r[..|existing.value|] == existing.value
    ensures existing.Some? ==> r[|existing.value|..] == WriteAngles(fmt, ps)
    ensures existing.None? ==> r == WriteAngles(fmt, ps)
  {
    match existing
    case None => WriteAngles(fmt, ps)
    case Some(prior) => prior + WriteAngles(fmt, ps)
  }

  /** `convertInputStep` as its source loop: one `write` per particle. */
  method AppendAngles(fmt: real -> string, existing: Option<string>, ps: seq<Particle>)
    returns (content: string)
    ensures content == ConvertInput(fmt, existing, ps)
  {
    content := if existing.Some? then existing.value else "";
    ghost var prior := content;
    var i := 0;
    while i < |ps|
      invariant i <= |ps|
      invariant content == prior + WriteAngles(fmt, ps[..i])
    {
      WriteAnglesSnoc(fmt, ps, i);
      AppendAssoc(prior, WriteAngles(fmt, ps[..i]), AngleLine(fmt, ps[i].angles));
      content := content + AngleLine(fmt, ps[i].angles);
      i := i + 1;
    }
    assert ps[..i] == ps;
    assert existing.None? ==> prior == [];
  }

  /** What `rot, tilt = map(float, line.split())` does with one line. */
  datatype AngleError =
    | FloatError(word: string)      // float() rejects the word (ValueError)
    | NotEnoughValues(got: nat)     // fewer than two words (ValueError)
    | TooManyValues                 // more than two words (ValueError)

  /** One line of the angles file read back. `map` is lazy, so the unpacking
      converts the words in order and looks at most at a third one before it
      reports too many values: a bad word among the first three is reported
      before a wrong count. */
  function ReadAngleLine(parse: string -> Option<real>, line: string): (r: Result<(real, real), AngleError>)
    ensures r.Success? <==> |Split(line)| == 2 && parse(Split(line)[0]).Some? && parse(Split(line)[1]).Some?
    ensures r.Success? ==> r.value == (parse(Split(line)[0]).value, parse(Split(line)[1]).value)
    ensures var ws := Split(line);
      forall k :: 0 <= k < |ws| && k < 3 && parse(ws[k]).None? && (forall j :: 0 <= j < k ==> parse(ws[j]).Some?)
        ==> r == Failure(FloatError(ws[k]))
    ensures var ws := Split(line);
      (forall k :: 0 <= k < |ws| && k < 3 ==> parse(ws[k]).Some?) && r.Failure? ==>
        r.error == (if |ws| < 2 then NotEnoughValues(|ws|) else TooManyValues)
  {
    var ws := Split(line);
    if |ws| >= 1 && parse(ws[0]).None? then Failure(FloatError(ws[0]))
    else if |ws| < 2 then Failure(NotEnoughValues(|ws|))
    else if parse(ws[1]).None? then Failure(FloatError(ws[1]))
    else if |ws| >= 3 && parse(ws[2]).None? then Failure(FloatError(ws[2]))
    else if |ws| > 2 then Failure(TooManyValues)
    else Success((parse(ws[0]).value, parse(ws[1]).value))
  }

  /** What a consumer of the `iterAngles` generator sees: the pairs yielded
      before the generator stopped, and the exception it stopped with, if any. */
  datatype AnglesRead = AnglesRead(pairs: seq<(real, real)>, error: Option<AngleError>)

  /** `iterAngles` over the lines of the file, one pair per line, in order,
      until the first line that cannot be read. */
  function ReadLines(parse: string -> Option<real>, lines: seq<string>): (r: AnglesRead)
    ensures |r.pairs| <= |lines|
    ensures forall k :: 0 <= k < |r.pairs| ==> ReadAngleLine(parse, lines[k]) == Success(r.pairs[k])
    ensures r.error.None? ==> |r.pairs| == |lines|
    ensures r.error.Some? ==> |r.pairs| < |lines| && ReadAngleLine(parse, lines[|r.pairs|]) == Failure(r.error.value)
  {
    if lines == [] then AnglesRead([], None)
    else match ReadAngleLine(parse, lines[0])
      case Failure(e) => AnglesRead([], Some(e))
      case Success(p) =>
        var rest := ReadLines(parse, lines[1..]);
        AnglesRead([p] + rest.pairs, rest.error)
  }

  /** `iterAngles(fn)` on the file's raw content, read in text mode: a pair
      for each line up to the first line that cannot be read, then that
      line's error. */
  function IterAngles(parse: string -> Option<real>, content: string): (r: AnglesRead)
    ensures var lines := SplitLines(ReadText(content));
      && |r.pairs| <= |lines|
      && (forall k :: 0 <= k < |r.pairs| ==> ReadAngleLine(parse, lines[k]) == Success(r.pairs[k]))
      && (r.error.None? <==> |r.pairs| == |lines|)
      && (r.error.Some? ==> ReadAngleLine(parse, lines[|r.pairs|]) == Failure(r.error.value))
  {
    ReadLines(parse, SplitLines(ReadText(content)))
  }

  // ---------------------------------------------------------------- lemmas

  lemma WriteAnglesSnoc(fmt: real -> string, ps: seq<Particle>, i: nat)
    requires i < |ps|
    ensures WriteAngles(fmt, ps[..i + 1]) == WriteAngles(fmt, ps[..i]) + AngleLine(fmt, ps[i].angles)
  {
    assert AngleLines(fmt, ps[..i + 1]) == AngleLines(fmt, ps[..i]) + [AngleLine(fmt, ps[i].angles)];
    ConcatAppend(AngleLines(fmt, ps[..i]), [AngleLine(fmt, ps[i].angles)]);
    assert Concat([AngleLine(fmt, ps[i].angles)]) == AngleLine(fmt, ps[i].angles) + Concat([]);
  }

  /** Each written line is a complete line whose words are the two angles. */
  lemma AngleLineWords(fmt: real -> string, a: EulerAngles)
    requires WritesWords(fmt)
    ensures IsLine(AngleLine(fmt, a))
    ensures Split(AngleLine(fmt, a)) == [fmt(a.rot), fmt(a.tilt)]
  {
    var line := AngleLine(fmt, a);
    var r, t := fmt(a.rot), fmt(a.tilt);
    assert IsToken(r) && IsToken(t);
    assert JoinSpaces([r, t]) == r + " " + t;
    SplitWordsLine([r, t]);
    forall i | 0 <= i < |line| - 1
      ensures line[i] != '\n'
    {
      if i < |r| {
        assert line[i] == r[i];
      } else if i > |r| {
        assert line[i] == t[i - |r| - 1];
      }
    }
  }

  /** A run writes exactly one line per particle, in iteration order. */
  lemma WriteAnglesLines(fmt: real -> string, ps: seq<Particle>)
    requires WritesWords(fmt)
    ensures SplitLines(WriteAngles(fmt, ps)) == AngleLines(fmt, ps)
    ensures |SplitLines(WriteAngles(fmt, ps))| == |ps|
  {
    var ls := AngleLines(fmt, ps);
    forall k | 0 <= k < |ls|
      ensures IsLine(ls[k])
    {
      AngleLineWords(fmt, ps[k].angles);
    }
    SplitLinesConcat(ls);
  }

  /** Appending keeps every line already in the file and adds one line per
      particle after them. */
  lemma ConvertInputAppends(fmt: real -> string, prior: string, ps: seq<Particle>)
    requires WritesWords(fmt)
    requires EndsLine(prior)
    ensures SplitLines(ConvertInput(fmt, Some(prior), ps)) == SplitLines(prior) + AngleLines(fmt, ps)
  {
    SplitLinesAppend(prior, WriteAngles(fmt, ps));
    WriteAnglesLines(fmt, ps);
  }

  /** Reading the file back gives each particle's rotation and tilt, as
      `parse` recovers them from their formatted text, and no error. */
  lemma ReadBackWritten(fmt: real -> string, parse: string -> Option<real>, ps: seq<Particle>)
    requires WritesWords(fmt)
    requires forall x :: parse(fmt(x)).Some?
    ensures IterAngles(parse, WriteAngles(fmt, ps)) == AnglesRead(
      seq(|ps|, i requires 0 <= i < |ps| =>
        (parse(fmt(ps[i].angles.rot)).value, parse(fmt(ps[i].angles.tilt)).value)),
      None)
  {
    WriteAnglesPlain(fmt, ps);
    ReadTextPlain(WriteAngles(fmt, ps));
    WriteAnglesLines(fmt, ps);
    ReadWrittenLines(fmt, parse, ps);
  }

  /** The written lines read as the particles' angles, with no error. */
  lemma ReadWrittenLines(fmt: real -> string, parse: string -> Option<real>, ps: seq<Particle>)
    requires WritesWords(fmt)
    requires forall x :: parse(fmt(x)).Some?
    ensures ReadLines(parse, AngleLines(fmt, ps)) == AnglesRead(
      seq(|ps|, i requires 0 <= i < |ps| =>
        (parse(fmt(ps[i].angles.rot)).value, parse(fmt(ps[i].angles.tilt)).value)),
      None)
  {
    var ls := AngleLines(fmt, ps);
    var r := ReadLines(parse, ls);
    forall k | 0 <= k < |ls|
      ensures ReadAngleLine(parse, ls[k]) ==
        Success((parse(fmt(ps[k].angles.rot)).value, parse(fmt(ps[k].angles.tilt)).value))
    {
      AngleLineWords(fmt, ps[k].angles);
    }
    assert r.error.None?;
  }

  /** Formatted angles hold no carriage return, so neither does the file. */
  lemma WriteAnglesPlain(fmt: real -> string, ps: seq<Particle>)
    requires WritesWords(fmt)
    ensures '\r' !in WriteAngles(fmt, ps)
  {
    var ls := AngleLines(fmt, ps);
    forall k | 0 <= k < |ls|
      ensures '\r' !in ls[k]
    {
      var a := ps[k].angles;
      assert IsToken(fmt(a.rot)) && IsToken(fmt(a.tilt));
      assert '\r' !in fmt(a.rot) && '\r' !in fmt(a.tilt);
    }
    ConcatLacks(ls, '\r');
  }

  /** `iterAngles` ends a line at a lone `\r` or a `\r\n` just as at a `\n`. */
  lemma IterAnglesLineEnds(parse: string -> Option<real>, a: string, b: string)
    requires a == [] || a[|a| - 1] != '\r'
    ensures IterAngles(parse, a + "\r\n" + b) == IterAngles(parse, a + "\n" + b)
    ensures (b == [] || b[0] != '\n') ==> IterAngles(parse, a + "\r" + b) == IterAngles(parse, a + "\n" + b)
  {
    CarriageReturnEndsLine(a, b);
  }

  /** The file a run writes ends with a complete line. */
  lemma WriteAnglesEndsLine(fmt: real -> string, ps: seq<Particle>)
    ensures EndsLine(WriteAngles(fmt, ps))
  {
    if ps != [] {
      var n := |ps| - 1;
      WriteAnglesSnoc(fmt, ps, n);
      assert ps[..n + 1] == ps;
      var line := AngleLine(fmt, ps[n].angles);
      assert line[|line| - 1] == '\n';
      var w := WriteAngles(fmt, ps);
      assert w[|w| - 1] == line[|line| - 1];
    }
  }

  /** Running the conversion a second time on the same run directory does not
      start over: every particle's line is in the file twice. */
  lemma RerunDuplicatesLines(fmt: real -> string, ps: seq<Particle>)
    requires WritesWords(fmt)
    ensures var once := ConvertInput(fmt, None, ps);
      SplitLines(ConvertInput(fmt, Some(once), ps)) == AngleLines(fmt, ps) + AngleLines(fmt, ps)
  {
    var once := ConvertInput(fmt, None, ps);
    WriteAnglesEndsLine(fmt, ps);
    WriteAnglesLines(fmt, ps);
    ConvertInputAppends(fmt, once, ps);
  }
}

=== FILE: cryoef_args.dfy ===
/** The command line handed to the cryoEF binary: `_getArgs` builds an
    insertion-ordered flag -> value dictionary from the run parameters and the
    input particles, and `runCryoEFStep` flattens it into `"k v k v ..."`.
    Running the binary itself is not part of this model. */
module CryoEfArgs {

  import opened Results
  import opened Text
  import opened Particles
  import opened Files

  /** A dictionary value, as the form parameters hold it. */
  datatype ArgValue =
    | StrValue(s: string)
    | IntValue(i: int)
    | FloatValue(x: real)

  /** The knobs of the protocol form that reach the command line. An unset
      symmetry is `None`. */
  datatype RunParams = RunParams(
    symmetryGroup: Option<string>,
    diam: int,
    angAcc: int,
    bFactor: int,
    fscRes: real,
    maxTilt: int)

  /** The form's "not given" value for the FSC resolution. */
  const NoFscRes: real := -1.0

  /** `getFirstItem()` of an empty particle set is `None`, and asking it for
      its X dimension raises AttributeError. */
  datatype ArgsError = NoParticles

  /** The dictionary's keys: cryoEF's command-line flags. */
  datatype Flag =
    | AnglesFlag    // -f  input angles file
    | BoxFlag       // -b  particle box size
    | AccuracyFlag  // -a  angular accuracy
    | BFactorFlag   // -B  B-factor
    | DiameterFlag  // -D  particle diameter
    | SymmetryFlag  // -g  symmetry group
    | TiltFlag      // -m  maximum tilt
    | FscFlag       // -r  FSC resolution

  function FlagText(f: Flag): string {
    match f
    case AnglesFlag => "-f"
    case BoxFlag => "-b"
    case AccuracyFlag => "-a"
    case BFactorFlag => "-B"
    case DiameterFlag => "-D"
    case SymmetryFlag => "-g"
    case TiltFlag => "-m"
    case FscFlag => "-r"
  }

  /** An insertion-ordered dictionary: its entries in order. */
  type Args = seq<(Flag, ArgValue)>

  function Keys(args: Args): (r: seq<Flag>)
    ensures |r| == |args| && forall i :: 0 <= i < |args| ==> r[i] == args[i].0
  {
    if args == [] then [] else [args[0].0] + Keys(args[1..])
  }

  /** `args.get(key)`: the value of the first entry with that key. */
  function Lookup(args: Args, key: Flag): (r: Option<ArgValue>)
    ensures r.None? <==> key !in Keys(args)
  {
    if args == [] then None
    else if args[0].0 == key then Some(args[0].1)
    else Lookup(args[1..], key)
  }

  /** The flags every command line carries, in dictionary order. */
  const AlwaysKeys: seq<Flag> :=
    [AnglesFlag, BoxFlag, AccuracyFlag, BFactorFlag, DiameterFlag, SymmetryFlag, TiltFlag]

  /** `symmetryGroup.get() or 'c1'`: an unset or empty symmetry means c1. */
  function SymmetryOrC1(g: Option<string>): string {
    if g.Some? && g.value != "" then g.value else "c1"
  }

  /** The seven entries of the dictionary literal in `_getArgs`. */
  function AlwaysArgs(extraDir: string, p: RunParams, first: Particle): Args {
    [ (AnglesFlag, StrValue(FileName(extraDir, AnglesFn))),
      (BoxFlag, IntValue(first.xDim)),
      (AccuracyFlag, IntValue(p.angAcc)),
      (BFactorFlag, IntValue(p.bFactor)),
      (DiameterFlag, IntValue(p.diam)),
      (SymmetryFlag, StrValue(SymmetryOrC1(p.symmetryGroup))),
      (TiltFlag, IntValue(p.maxTilt)) ]
  }

  /** `_getArgs`. */
  function GetArgs(extraDir: string, p: RunParams, particles: seq<Particle>): (r: Result<Args, ArgsError>)
    ensures r.Failure? <==> particles == []
    ensures r.Success? ==>
      Keys(r.value) == AlwaysKeys + (if p.fscRes != NoFscRes then [FscFlag] else [])
    ensures r.Success? ==> (Lookup(r.value, FscFlag).Some? <==> p.fscRes != NoFscRes)
    ensures r.Success? && p.fscRes != NoFscRes ==> Lookup(r.value, FscFlag) == Some(FloatValue(p.fscRes))
  {
    if particles == [] then Failure(NoParticles)
    else
      var always := AlwaysArgs(extraDir, p, particles[0]);
      AlwaysArgsKeys(extraDir, p, particles[0]);
      if p.fscRes != NoFscRes then
        var extra := [(FscFlag, FloatValue(p.fscRes))];
        LookupAppend(always, extra);
        KeysAppend(always, extra);
        Success(always + extra)
      else
        Success(always)
  }

  /** The value `_getArgs` gives each flag. */
  lemma GetArgsValues(extraDir: string, p: RunParams, particles: seq<Particle>)
    requires particles != []
    ensures var args := GetArgs(extraDir, p, particles).value;
      && Lookup(args, AnglesFlag) == Some(StrValue(FileName(extraDir, AnglesFn)))
      && Lookup(args, BoxFlag) == Some(IntValue(particles[0].xDim))
      && Lookup(args, AccuracyFlag) == Some(IntValue(p.angAcc))
      && Lookup(args, BFactorFlag) == Some(IntValue(p.bFactor))
      && Lookup(args, DiameterFlag) == Some(IntValue(p.diam))
      && Lookup(args, TiltFlag) == Some(IntValue(p.maxTilt))
    ensures var args := GetArgs(extraDir, p, particles).value;
      p.symmetryGroup.Some? && p.symmetryGroup.value != "" ==>
        Lookup(args, SymmetryFlag) == Some(StrValue(p.symmetryGroup.value))
    ensures var args := GetArgs(extraDir, p, particles).value;
      p.symmetryGroup.None? || p.symmetryGroup.value == "" ==>
        Lookup(args, SymmetryFlag) == Some(StrValue("c1"))
  {
    var args := GetArgs(extraDir, p, particles).value;
    var always := AlwaysArgs(extraDir, p, particles[0]);
    var extra := args[7..];
    assert args == always + extra;
    AlwaysArgsKeys(extraDir, p, particles[0]);
    LookupAppend(always, extra);
    AlwaysLookup(extraDir, p, particles[0], 0);
    AlwaysLookup(extraDir, p, particles[0], 1);
    AlwaysLookup(extraDir, p, particles[0], 2);
    AlwaysLookup(extraDir, p, particles[0], 3);
    AlwaysLookup(extraDir, p, particles[0], 4);
    AlwaysLookup(extraDir, p, particles[0], 5);
    AlwaysLookup(extraDir, p, particles[0], 6);
  }

  /** `str(v)` for a dictionary value; `showFloat` is Python's `str` of a
      float. */
  function Render(v: ArgValue, showFloat: real -> string): string {
    match v
    case StrValue(s) => s
    case IntValue(i) => IntToString(i)
    case FloatValue(x) => showFloat(x)
  }

  /** `'%s %s' % (k, str(v))` for each entry, in dictionary order. */
  function Entries(args: Args, showFloat: real -> string): seq<string> {
    if args == [] then []
    else [FlagText(args[0].0) + " " + Render(args[0].1, showFloat)] + Entries(args[1..], showFloat)
  }

  /** The parameter string of `runCryoEFStep`: although it joins `"k v"`
      entries, it is every key and value joined by single spaces. */
  function ParamString(args: Args, showFloat: real -> string): (r: string)
    ensures r == JoinSpaces(FlagWords(args, showFloat))
  {
    EntriesJoin(args, showFloat);
    JoinSpaces(Entries(args, showFloat))
  }

  /** The words the parameter string is meant to carry: each key followed by its value. */
  function FlagWords(args: Args, showFloat: real -> string): (r: seq<string>)
    ensures |r| == 2 * |args|
    ensures forall i :: 0 <= i < |args| ==>
      r[2 * i] == FlagText(args[i].0) && r[2 * i + 1] == Render(args[i].1, showFloat)
  {
    if args == [] then []
    else [FlagText(args[0].0), Render(args[0].1, showFloat)] + FlagWords(args[1..], showFloat)
  }

  /** Every value renders as a single word. */
  predicate AllWords(args: Args, showFloat: real -> string) {
    forall i :: 0 <= i < |args| ==> IsToken(Render(args[i].1, showFloat))
  }

  // ---------------------------------------------------------------- lemmas

  lemma {:induction false} KeysAppend(a: Args, b: Args)
    ensures Keys(a + b) == Keys(a) + Keys(b)
  {
    if a == [] {
      assert a + b == b;
    } else {
      assert (a + b)[1..] == a[1..] + b;
      KeysAppend(a[1..], b);
    }
  }

  /** Entries added later never shadow an earlier key (`args[k] = v` on a new
      key appends; on an old one, which `_getArgs` never does, it would
      overwrite in place). */
  lemma {:induction false} LookupAppend(a: Args, b: Args)
    ensures forall key :: key in Keys(a) ==> Lookup(a + b, key) == Lookup(a, key)
    ensures forall key :: key !in Keys(a) ==> Lookup(a + b, key) == Lookup(b, key)
  {
    if a == [] {
      assert a + b == b;
    } else {
      assert (a + b)[0] == a[0];
      assert (a + b)[1..] == a[1..] + b;
      LookupAppend(a[1..], b);
      assert Keys(a) == [a[0].0] + Keys(a[1..]);
    }
  }

  /** A key not used by any earlier entry is looked up to its own value. */
  lemma {:induction false} LookupFirst(args: Args, i: nat)
    requires i < |args|
    requires args[i].0 !in Keys(args)[..i]
    ensures Lookup(args, args[i].0) == Some(args[i].1)
  {
    if i > 0 {
      assert Keys(args)[0] in Keys(args)[..i];
      assert Keys(args[1..])[..i - 1] == Keys(args)[1..i];
      assert forall k :: k in Keys(args)[1..i] ==> k in Keys(args)[..i];
      LookupFirst(args[1..], i - 1);
    }
  }

  lemma FlagTextWord(f: Flag)
    ensures IsToken(FlagText(f))
  {
  }

  /** Joining `"k v"` entries with spaces is joining all keys and values with
      spaces. */
  lemma {:induction false} EntriesJoin(args: Args, showFloat: real -> string)
    ensures JoinSpaces(Entries(args, showFloat)) == JoinSpaces(FlagWords(args, showFloat))
  {
    if args != [] {
      var k, v := FlagText(args[0].0), Render(args[0].1, showFloat);
      var es, ws := Entries(args[1..], showFloat), FlagWords(args[1..], showFloat);
      EntriesJoin(args[1..], showFloat);
      assert Entries(args, showFloat) == [k + " " + v] + es;
      assert FlagWords(args, showFloat) == [k, v] + ws;
      assert ([k, v] + ws)[1..] == [v] + ws;
      assert ([v] + ws)[1..] == ws;
      assert ([k + " " + v] + es)[1..] == es;
      if args[1..] == [] {
        assert es == [] && ws == [];
      } else {
        assert |es| > 0 && |ws| > 0;
        assert k + " " + v + " " + JoinSpaces(es) == k + " " + (v + " " + JoinSpaces(ws));
      }
    }
  }

  /** When keys and values are single words, the parameter string splits
      into exactly key, value, key, value, ... in dictionary order: 2n words
      for n entries. */
  lemma ParamStringWords(args: Args, showFloat: real -> string)
    requires AllWords(args, showFloat)
    ensures Split(ParamString(args, showFloat)) == FlagWords(args, showFloat)
    ensures |Split(ParamString(args, showFloat))| == 2 * |args|
  {
    var ws := FlagWords(args, showFloat);
    FlagWordsTokens(args, showFloat);
    assert ParamString(args, showFloat) == JoinSpaces(ws);
    SplitJoin(ws);
  }

  /** With every value a single word, every key and value is one. */
  lemma FlagWordsTokens(args: Args, showFloat: real -> string)
    requires AllWords(args, showFloat)
    ensures forall j :: 0 <= j < |FlagWords(args, showFloat)| ==> IsToken(FlagWords(args, showFloat)[j])
  {
    var ws := FlagWords(args, showFloat);
    forall j | 0 <= j < |ws|
      ensures IsToken(ws[j])
    {
      var i := j / 2;
      assert j == 2 * i || j == 2 * i + 1;
      FlagTextWord(args[i].0);
    }
  }

  /** The command line of a run: when the run directory and the symmetry
      contain no whitespace and `showFloat` writes one word, the parameter
      string splits into 16 words with an FSC resolution and 14 without. */
  lemma CommandLineWords(extraDir: string, p: RunParams, particles: seq<Particle>, showFloat: real -> string)
    requires particles != []
    requires forall i :: 0 <= i < |extraDir| ==> !IsSpace(extraDir[i])
    requires p.symmetryGroup.Some? ==> forall i :: 0 <= i < |p.symmetryGroup.value| ==> !IsSpace(p.symmetryGroup.value[i])
    requires forall x :: IsToken(showFloat(x))
    ensures var args := GetArgs(extraDir, p, particles).value;
      Split(ParamString(args, showFloat)) == FlagWords(args, showFloat) &&
      |Split(ParamString(args, showFloat))| == if p.fscRes != NoFscRes then 16 else 14
  {
    var args := GetArgs(extraDir, p, particles).value;
    var always := AlwaysArgs(extraDir, p, particles[0]);
    var extra := args[7..];
    assert args == always + extra;
    AlwaysArgsWords(extraDir, p, particles[0], showFloat);
    forall i | 0 <= i < |args|
      ensures IsToken(Render(args[i].1, showFloat))
    {
      if i < 7 {
        assert args[i] == always[i];
      }
    }
    ParamStringWords(args, showFloat);
  }

  /** The symmetry written on the command line is one word. */
  lemma SymmetryWord(g: Option<string>)
    requires g.Some? ==> forall i :: 0 <= i < |g.value| ==> !IsSpace(g.value[i])
    ensures IsToken(SymmetryOrC1(g))
  {
  }

  /** The seven fixed values are single words. */
  lemma AlwaysArgsWords(extraDir: string, p: RunParams, first: Particle, showFloat: real -> string)
    requires forall i :: 0 <= i < |extraDir| ==> !IsSpace(extraDir[i])
    requires p.symmetryGroup.Some? ==> forall i :: 0 <= i < |p.symmetryGroup.value| ==> !IsSpace(p.symmetryGroup.value[i])
    ensures AllWords(AlwaysArgs(extraDir, p, first), showFloat)
  {
    var args := AlwaysArgs(extraDir, p, first);
    FileNameWord(extraDir, AnglesFn);
    SymmetryWord(p.symmetryGroup);
    forall i | 0 <= i < |args|
      ensures IsToken(Render(args[i].1, showFloat))
    {
      if i == 0 || i == 5 {
      } else {
        assert args[i].1.IntValue?;
        IntToStringToken(args[i].1.i);
      }
    }
  }

  /** The literal's keys are the fixed flags. */
  lemma AlwaysArgsKeys(extraDir: string, p: RunParams, first: Particle)
    ensures Keys(AlwaysArgs(extraDir, p, first)) == AlwaysKeys
  {
  }

  /** No fixed flag appears twice. */
  lemma AlwaysKeysDistinct(i: nat)
    requires i < |AlwaysKeys|
    ensures AlwaysKeys[i] !in AlwaysKeys[..i]
  {
  }

  /** Each entry of the literal is what its flag looks up to. */
  lemma AlwaysLookup(extraDir: string, p: RunParams, first: Particle, i: nat)
    requires i < |AlwaysKeys|
    ensures Lookup(AlwaysArgs(extraDir, p, first), AlwaysKeys[i]) == Some(AlwaysArgs(extraDir, p, first)[i].1)
  {
    var args := AlwaysArgs(extraDir, p, first);
    AlwaysArgsKeys(extraDir, p, first);
    AlwaysKeysDistinct(i);
    LookupFirst(args, i);
  }
}

=== FILE: files.dfy ===
/** The per-run file names of the protocol (`_createFilenameTemplates`): every
    artefact lives in the run's extra directory under a fixed base name. */
module Files {

  import opened Text

  datatype FileKey =
    | AnglesFn         // input angles written by convertInputStep
    | Projections
    | OutputLog        // cryoEF's text log
    | RealSpacePsf
    | FourierSpacePsf
    | OutputHist       // PSF resolution histogram data

  function BaseName(k: FileKey): string {
    match k
    case AnglesFn => "input_angles.dat"
    case Projections => "input_projections.sqlite"
    case OutputLog => "input_angles.log"
    case RealSpacePsf => "input_angles_R.mrc"
    case FourierSpacePsf => "input_angles_K.mrc"
    case OutputHist => "input_angles_PSFres.dat"
  }

  /** `_getExtraPath(name)`: `name` inside the run's extra directory. */
  function ExtraPath(extraDir: string, name: string): string {
    extraDir + "/" + name
  }

  /** `_getFileName(key)` once the templates are registered. */
  function FileName(extraDir: string, k: FileKey): string {
    ExtraPath(extraDir, BaseName(k))
  }

  /** Every base name is one word. */
  lemma BaseNameToken(k: FileKey)
    ensures IsToken(BaseName(k))
  {
  }

  /** A one-word name inside a directory without whitespace is one word. */
  lemma ExtraPathWord(extraDir: string, name: string)
    requires forall i :: 0 <= i < |extraDir| ==> !IsSpace(extraDir[i])
    requires IsToken(name)
    ensures IsToken(ExtraPath(extraDir, name))
  {
    var path := ExtraPath(extraDir, name);
    forall i | 0 <= i < |path|
      ensures !IsSpace(path[i])
    {
      if i < |extraDir| {
        assert path[i] == extraDir[i];
      } else if i > |extraDir| {
        assert path[i] == name[i - |extraDir| - 1];
      }
    }
  }

  /** In a run directory without whitespace, every file name is one word. */
  lemma FileNameWord(extraDir: string, k: FileKey)
    requires forall i :: 0 <= i < |extraDir| ==> !IsSpace(extraDir[i])
    ensures IsToken(FileName(extraDir, k))
  {
    BaseNameToken(k);
    ExtraPathWord(extraDir, BaseName(k));
  }

  /** The name part of a path built by `ExtraPath`. */
  lemma ExtraPathName(extraDir: string, name: string)
    ensures ExtraPath(extraDir, name)[|extraDir| + 1..] == name
  {
  }

  /** No two templates share a file: distinct keys name distinct paths. */
  lemma FileNamesDistinct(extraDir: string, k1: FileKey, k2: FileKey)
    requires k1 != k2
    ensures FileName(extraDir, k1) != FileName(extraDir, k2)
  {
    ExtraPathName(extraDir, BaseName(k1));
    ExtraPathName(extraDir, BaseName(k2));
    assert BaseName(k1) != BaseName(k2) by {
      match k1
      case AnglesFn =>
        assert BaseName(k1)[6] == 'a';
      case Projections =>
        assert BaseName(k1)[6] == 'p';
      case OutputLog =>
        assert BaseName(k1)[|BaseName(k1)| - 1] == 'g';
      case RealSpacePsf =>
        assert BaseName(k1)[13] == 'R';
      case FourierSpacePsf =>
        assert BaseName(k1)[13] == 'K';
      case OutputHist =>
        assert BaseName(k1)[13] == 'P';
    }
  }
}

=== FILE: log_parser.dfy ===
/** `parseOutput`: the scan of cryoEF's text log for its five summary
    statistics. Each line is tested against five marker substrings in a fixed
    priority order; the first marker found selects one word of the line at a
    fixed position; the scan ends at the first line whose marker is the best
    PSF resolution. The words are returned as text: their conversion to
    floating point is left to the caller (see `ProtocolSummary.ToFloats`). */
module LogParser {

  import opened Results
  import opened Text

  /** The five statistics, declared in the order the `elif` chain tries them. */
  datatype Marker = Efficiency | MeanRes | StdDev | WorstRes | BestRes

  /** Position of a marker in the `elif` chain (0 is tried first). */
  function Rank(m: Marker): nat {
    match m
    case Efficiency => 0
    case MeanRes => 1
    case StdDev => 2
    case WorstRes => 3
    case BestRes => 4
  }

  /** The markers in chain order. */
  const Chain: seq<Marker> := [Efficiency, MeanRes, StdDev, WorstRes, BestRes]

  lemma ChainRank(m: Marker)
    ensures Rank(m) < |Chain| && Chain[Rank(m)] == m
  {
  }

  /** The substring that identifies a marker's line. Only the best resolution
      marker has no trailing colon. */
  function Pattern(m: Marker): string {
    match m
    case Efficiency => "Efficiency:"
    case MeanRes => "Mean PSF resolution:"
    case StdDev => "Standard deviation:"
    case WorstRes => "Worst PSF resolution:"
    case BestRes => "Best PSF resolution"
  }

  /** Index of the word `line.split()[...]` takes for a marker. */
  function WordIndex(m: Marker): nat {
    match m
    case Efficiency => 1
    case MeanRes => 3
    case StdDev => 2
    case WorstRes => 3
    case BestRes => 3
  }

  /** The marker a line counts for: the first one in chain order whose
      pattern occurs in the line, or none. */
  function Classify(line: string): (r: Option<Marker>)
    ensures r.Some? ==> Contains(line, Pattern(r.value))
    ensures r.Some? ==> forall m :: Rank(m) < Rank(r.value) ==> !Contains(line, Pattern(m))
    ensures r.None? <==> forall m :: !Contains(line, Pattern(m))
  {
    if Contains(line, Pattern(Efficiency)) then Some(Efficiency)
    else if Contains(line, Pattern(MeanRes)) then Some(MeanRes)
    else if Contains(line, Pattern(StdDev)) then Some(StdDev)
    else if Contains(line, Pattern(WorstRes)) then Some(WorstRes)
    else if Contains(line, Pattern(BestRes)) then Some(BestRes)
    else None
  }

  /** The converse of `Classify`'s contract: a line that contains a marker's
      pattern and none tried before it is classified as that marker. */
  lemma ClassifiedAs(line: string, m: Marker)
    requires Contains(line, Pattern(m))
    requires forall m' :: Rank(m') < Rank(m) ==> !Contains(line, Pattern(m'))
    ensures Classify(line) == Some(m)
  {
  }

  /** The line that ends the scan. */
  predicate IsStop(line: string) {
    Classify(line) == Some(BestRes)
  }

  /** `line.split()[WordIndex(m)]`, or `None` where Python raises IndexError. */
  function WordAt(line: string, m: Marker): (r: Option<string>)
    ensures r.None? <==> |Split(line)| <= WordIndex(m)
    ensures r.Some? ==> IsToken(r.value) && r.value == Split(line)[WordIndex(m)]
  {
    var words := Split(line);
    if WordIndex(m) < |words| then Some(words[WordIndex(m)]) else None
  }

  /** The only exception the scan itself raises: a marker line with too few
      words for its index. */
  datatype LogError = IndexError

  /** Puts a word in front of the result of the rest of the scan. */
  function Prepend(w: seq<string>, rest: Result<seq<string>, LogError>): Result<seq<string>, LogError> {
    match rest
    case Success(ws) => Success(w + ws)
    case Failure(e) => Failure(e)
  }

  lemma PrependPrepend(a: seq<string>, b: seq<string>, rest: Result<seq<string>, LogError>)
    ensures Prepend(a, Prepend(b, rest)) == Prepend(a + b, rest)
  {
    if rest.Success? {
      assert a + (b + rest.value) == (a + b) + rest.value;
    }
  }

  /** The scan over the lines of an existing log, as the loop of `parseOutput`
      performs it. */
  function ParseLines(lines: seq<string>): (r: Result<seq<string>, LogError>)
    ensures r.Success? ==> |r.value| <= |lines|
    ensures r.Success? ==> forall k :: 0 <= k < |r.value| ==> IsToken(r.value[k])
  {
    if lines == [] then Success([])
    else match Classify(lines[0])
      case None => ParseLines(lines[1..])
      case Some(m) =>
        match WordAt(lines[0], m)
        case None => Failure(IndexError)
        case Some(w) =>
          if m == BestRes then Success([w]) else Prepend([w], ParseLines(lines[1..]))
  }

  /** `parseOutput(filename)`: `None` stands for a log file that does not
      exist. */
  function ParseOutput(log: Option<seq<string>>): (r: Result<seq<string>, LogError>)
    ensures log.None? ==> r == Success([])
    ensures log.Some? ==> r == ParseLines(log.value)
  {
    match log
    case None => Success([])
    case Some(lines) => ParseLines(lines)
  }

  /** `parseOutput` written as its source loop: one pass over the lines, an
      accumulator, and a `break` at the best-resolution line. */
  method ScanLog(log: Option<seq<string>>) returns (res: Result<seq<string>, LogError>)
    ensures res == ParseOutput(log)
  {
    if log.None? {
      return Success([]);
    }
    var lines := log.value;
    var acc: seq<string> := [];
    var i := 0;
    assert lines[0..] == lines;
    assert Prepend([], ParseLines(lines)) == ParseLines(lines) by {
      if ParseLines(lines).Success? {
        assert [] + ParseLines(lines).value == ParseLines(lines).value;
      }
    }
    while i < |lines|
      invariant i <= |lines|
      invariant Prepend(acc, ParseLines(lines[i..])) == ParseLines(lines)
    {
      assert lines[i..][0] == lines[i];
      assert lines[i..][1..] == lines[i + 1..];
      var m := Classify(lines[i]);
      if m.Some? {
        var w := WordAt(lines[i], m.value);
        if w.None? {
          return Failure(IndexError);
        }
        PrependPrepend(acc, [w.value], ParseLines(lines[i + 1..]));
        acc := acc + [w.value];
        if m.value == BestRes {
          return Success(acc);
        }
      }
      i := i + 1;
    }
    assert lines[i..] == [];
    assert acc + [] == acc;
    return Success(acc);
  }

  // ------------------------------------------------------- reference reading

  /** Index of the first element that satisfies `p`, if any. */
  function FirstWhere<T>(xs: seq<T>, p: T -> bool): (r: Option<nat>)
    ensures r.Some? ==> r.value < |xs| && p(xs[r.value])
    ensures r.Some? ==> forall j :: 0 <= j < r.value ==> !p(xs[j])
    ensures r.None? ==> forall j :: 0 <= j < |xs| ==> !p(xs[j])
  {
    if xs == [] then None
    else if p(xs[0]) then Some(0)
    else
      var r' := FirstWhere(xs[1..], p);
      assert forall j :: 1 <= j < |xs| ==> xs[j] == xs[1..][j - 1];
      if r'.None? then None else Some(r'.value + 1)
  }

  /** The elements up to and including the first that satisfies `p`. */
  function UpTo<T>(xs: seq<T>, p: T -> bool): seq<T> {
    match FirstWhere(xs, p)
    case None => xs
    case Some(k) => xs[..k + 1]
  }

  lemma UpToCons<T>(xs: seq<T>, p: T -> bool)
    requires xs != [] && !p(xs[0])
    ensures UpTo(xs, p) == [xs[0]] + UpTo(xs[1..], p)
  {
    var r := FirstWhere(xs[1..], p);
    if r.Some? {
      assert FirstWhere(xs, p) == Some(r.value + 1);
      TakeCons(xs, r.value + 1);
    } else {
      assert FirstWhere(xs, p).None?;
      assert xs == [xs[0]] + xs[1..];
    }
  }

  /** Index of the first line that ends the scan, if any. */
  function FirstStop(lines: seq<string>): (r: Option<nat>)
    ensures r.Some? ==> r.value < |lines| && IsStop(lines[r.value])
    ensures r.Some? ==> forall j :: 0 <= j < r.value ==> !IsStop(lines[j])
    ensures r.None? ==> forall j :: 0 <= j < |lines| ==> !IsStop(lines[j])
  {
    FirstWhere(lines, IsStop)
  }

  /** The lines the scan reads: up to and including the first stop line. */
  function Scanned(lines: seq<string>): seq<string> {
    UpTo(lines, IsStop)
  }

  /** The lines that carry a marker, in file order. */
  function MarkerLines(lines: seq<string>): (r: seq<string>)
    ensures |r| <= |lines|
    ensures forall k :: 0 <= k < |r| ==> Classify(r[k]).Some?
    ensures forall x :: x in r <==> x in lines && Classify(x).Some?
  {
    if lines == [] then []
    else if Classify(lines[0]).Some? then [lines[0]] + MarkerLines(lines[1..])
    else MarkerLines(lines[1..])
  }

  /** Filtering keeps file order: the marker lines of two consecutive parts
      of a log are those of the first part followed by those of the second. */
  lemma {:induction false} MarkerLinesAppend(a: seq<string>, b: seq<string>)
    ensures MarkerLines(a + b) == MarkerLines(a) + MarkerLines(b)
  {
    if a == [] {
      assert a + b == b;
    } else {
      assert (a + b)[0] == a[0];
      assert (a + b)[1..] == a[1..] + b;
      MarkerLinesAppend(a[1..], b);
      if Classify(a[0]).Some? {
        AppendAssoc([a[0]], MarkerLines(a[1..]), MarkerLines(b));
      }
    }
  }

  /** The statistic word a line offers: none for a line without a marker
      or with too few words for its marker's index. */
  function LineWord(line: string): (r: Option<string>)
    ensures r.Some? ==> Classify(line).Some?
  {
    match Classify(line)
    case None => None
    case Some(m) => WordAt(line, m)
  }

  /** A marker line with enough words for its marker's index. */
  predicate HasWord(line: string)
    requires Classify(line).Some?
  {
    LineWord(line).Some?
  }

  /** The statistic word of a marker line that has one. */
  function WordOf(line: string): string
    requires Classify(line).Some? && HasWord(line)
  {
    LineWord(line).value
  }

  /** The words `word` offers for `xs`, in order; an IndexError as soon as
      one is missing. */
  function TakeEach<T>(xs: seq<T>, word: T -> Option<string>): Result<seq<string>, LogError> {
    if xs == [] then Success([])
    else if word(xs[0]).None? then Failure(IndexError)
    else Prepend([word(xs[0]).value], TakeEach(xs[1..], word))
  }

  lemma {:induction false} TakeEachSpec<T>(xs: seq<T>, word: T -> Option<string>)
    ensures TakeEach(xs, word).Success? <==> forall k :: 0 <= k < |xs| ==> word(xs[k]).Some?
    ensures TakeEach(xs, word).Success? ==> |TakeEach(xs, word).value| == |xs|
    ensures TakeEach(xs, word).Success? ==>
              forall k :: 0 <= k < |xs| ==> TakeEach(xs, word).value[k] == word(xs[k]).value
  {
    if xs != [] {
      TakeEachSpec(xs[1..], word);
      assert forall k :: 1 <= k < |xs| ==> xs[k] == xs[1..][k - 1];
    }
  }

  /** Each marker line's word, in order; an IndexError as soon as one of
      them is too short. */
  function TakeWords(ms: seq<string>): Result<seq<string>, LogError>
    requires forall k :: 0 <= k < |ms| ==> Classify(ms[k]).Some?
  {
    TakeEach(ms, LineWord)
  }

  /** Taking the words succeeds exactly when every marker line has one, and
      then gives one word per line, in order. */
  lemma TakeWordsSpec(ms: seq<string>)
    requires forall k :: 0 <= k < |ms| ==> Classify(ms[k]).Some?
    ensures TakeWords(ms).Success? <==> forall k :: 0 <= k < |ms| ==> HasWord(ms[k])
    ensures TakeWords(ms).Success? ==> |TakeWords(ms).value| == |ms|
    ensures TakeWords(ms).Success? ==>
              forall k :: 0 <= k < |ms| ==> TakeWords(ms).value[k] == WordOf(ms[k])
  {
    TakeEachSpec(ms, LineWord);
  }

  /** `TakeWords` one line at a time. */
  lemma TakeWordsCons(ms: seq<string>)
    requires ms != [] && forall k :: 0 <= k < |ms| ==> Classify(ms[k]).Some?
    ensures TakeWords(ms) == if !HasWord(ms[0]) then Failure(IndexError)
                             else Prepend([WordOf(ms[0])], TakeWords(ms[1..]))
  {
  }

  // ---------------------------------------------------------------- lemmas

  /** A line with no marker has no effect wherever it stands. */
  lemma {:induction false} UnmarkedLineIgnored(a: seq<string>, x: string, b: seq<string>)
    requires Classify(x).None?
    ensures ParseLines(a + [x] + b) == ParseLines(a + b)
  {
    if a == [] {
      assert a + b == b;
      assert ([x] + b)[0] == x;
      assert ([x] + b)[1..] == b;
      assert a + [x] + b == [x] + b;
    } else {
      assert (a + [x] + b)[0] == a[0];
      assert (a + [x] + b)[1..] == a[1..] + [x] + b;
      assert (a + b)[1..] == a[1..] + b;
      UnmarkedLineIgnored(a[1..], x, b);
    }
  }

  /** Lines after the first best-resolution line have no effect. */
  lemma {:induction false} LinesAfterStopIgnored(head: seq<string>, tail: seq<string>)
    requires |head| > 0 && IsStop(head[|head| - 1])
    requires forall j :: 0 <= j < |head| - 1 ==> !IsStop(head[j])
    ensures ParseLines(head + tail) == ParseLines(head)
  {
    var s := head + tail;
    assert s[0] == head[0];
    if |head| > 1 {
      assert !IsStop(head[0]);
      assert s[1..] == head[1..] + tail;
      forall j | 0 <= j < |head[1..]| - 1
        ensures !IsStop(head[1..][j])
      {
        assert head[1..][j] == head[j + 1];
      }
      LinesAfterStopIgnored(head[1..], tail);
    }
  }

  /** Whatever follows, the log is read only up to the first stop line. */
  lemma ScanEndsAtFirstStop(lines: seq<string>)
    ensures ParseLines(lines) == ParseLines(Scanned(lines))
  {
    match FirstStop(lines)
    case None =>
    case Some(k) =>
      assert lines == lines[..k + 1] + lines[k + 1..];
      LinesAfterStopIgnored(lines[..k + 1], lines[k + 1..]);
  }

  /** When the scan stops at a best-resolution line and succeeds, that
      line's word is the last element of the result. */
  lemma {:induction false} StopWordIsLast(lines: seq<string>)
    requires FirstStop(lines).Some?
    requires ParseLines(lines).Success?
    ensures var r := ParseLines(lines).value;
      var k := FirstStop(lines).value;
      |r| > 0 && WordAt(lines[k], BestRes) == Some(r[|r| - 1])
  {
    if !IsStop(lines[0]) {
      assert FirstStop(lines).value == FirstStop(lines[1..]).value + 1;
      StopWordIsLast(lines[1..]);
    }
  }

  /** Scanning past a line that does not stop the scan. */
  lemma ScannedCons(lines: seq<string>)
    requires lines != [] && !IsStop(lines[0])
    ensures Scanned(lines) == [lines[0]] + Scanned(lines[1..])
  {
    UpToCons(lines, IsStop);
  }

  lemma TakeCons<T>(s: seq<T>, n: nat)
    requires 0 < n < |s|
    ensures s[..n + 1] == [s[0]] + s[1..][..n]
  {
  }

  /** The scan reads as three simpler steps: keep the lines up to the first
      stop, keep those of them that carry a marker, and take each one's word. */
  lemma {:induction false} ParseLinesReading(lines: seq<string>)
    ensures ParseLines(lines) == TakeWords(MarkerLines(Scanned(lines)))
  {
    if lines != [] {
      var m := Classify(lines[0]);
      if m.None? {
        ScannedCons(lines);
        assert ([lines[0]] + Scanned(lines[1..]))[1..] == Scanned(lines[1..]);
        ParseLinesReading(lines[1..]);
      } else if m.value == BestRes {
        assert Scanned(lines) == [lines[0]];
        assert MarkerLines([lines[0]]) == [lines[0]] by {
          assert [lines[0]][1..] == [];
        }
        assert [lines[0]][1..] == [];
        TakeWordsCons([lines[0]]);
        if HasWord(lines[0]) {
          assert [WordOf(lines[0])] + [] == [WordOf(lines[0])];
        }
      } else {
        ScannedCons(lines);
        assert ([lines[0]] + Scanned(lines[1..]))[1..] == Scanned(lines[1..]);
        var ms := MarkerLines(Scanned(lines));
        assert ms == [lines[0]] + MarkerLines(Scanned(lines[1..]));
        assert ms[1..] == MarkerLines(Scanned(lines[1..]));
        TakeWordsCons(ms);
        ParseLinesReading(lines[1..]);
      }
    }
  }

  // ------------------------------------------------------- well-formed logs

  /** A character of a number as cryoEF prints it (decimal or exponent
      notation). */
  predicate NumeralChar(c: char) {
    '0' <= c <= '9' || c == '.' || c == '-' || c == '+' || c == 'e'
  }

  /** A printed number: one word of numeral characters. */
  predicate IsNumeral(v: string) {
    |v| > 0 && forall i :: 0 <= i < |v| ==> NumeralChar(v[i])
  }

  /** The words that precede the value on a statistic's line; there are
      exactly `WordIndex(m)` of them. They are listed word by word because
      `split()` needs them so; `LeadJoin` proves they make up `Lead(m)`. */
  function LeadWords(m: Marker): (r: seq<string>)
    ensures |r| == WordIndex(m)
  {
    match m
    case Efficiency => ["Efficiency:"]
    case MeanRes => ["Mean", "PSF", "resolution:"]
    case StdDev => ["Standard", "deviation:"]
    case WorstRes => ["Worst", "PSF", "resolution:"]
    case BestRes => ["Best", "PSF", "resolution:"]
  }

  /** The label of a statistic's line: its marker's pattern, with the colon
      that the best resolution's pattern leaves out. */
  function Lead(m: Marker): string {
    if m == BestRes then Pattern(m) + ":" else Pattern(m)
  }

  /** The line cryoEF writes for statistic `m` with printed value `v`. */
  function StatLine(m: Marker, v: string): string {
    Lead(m) + ValueTail(v)
  }

  /** What follows the label on a statistic line: a space, the value and
      the end of the line. */
  function ValueTail(v: string): string {
    " " + v + "\n"
  }

  /** The five statistic lines for values `vs`, in chain order. */
  function StatLines(vs: seq<string>): (r: seq<string>)
    requires |vs| == |Chain|
    ensures |r| == |Chain|
  {
    seq(|Chain|, k requires 0 <= k < |Chain| => StatLine(Chain[k], vs[k]))
  }

  lemma NumeralLacks(v: string, c: char)
    requires IsNumeral(v) && !NumeralChar(c)
    ensures c !in v
  {
  }

  // One lemma per marker: the verifier joins a literal word list only when
  // it faces that list alone, so `LeadJoin` cannot do all five at once.
  lemma LeadJoinEfficiency()
    ensures JoinSpaces(LeadWords(Efficiency)) == Lead(Efficiency)
  {
  }

  lemma LeadJoinMeanRes()
    ensures JoinSpaces(LeadWords(MeanRes)) == Lead(MeanRes)
  {
  }

  lemma LeadJoinStdDev()
    ensures JoinSpaces(LeadWords(StdDev)) == Lead(StdDev)
  {
  }

  lemma LeadJoinWorstRes()
    ensures JoinSpaces(LeadWords(WorstRes)) == Lead(WorstRes)
  {
  }

  lemma LeadJoinBestRes()
    ensures JoinSpaces(LeadWords(BestRes)) == Lead(BestRes)
  {
  }

  lemma LeadWordsTokens(m: Marker, k: nat)
    requires k < |LeadWords(m)|
    ensures IsToken(LeadWords(m)[k])
  {
  }

  /** A label is its lead words joined with spaces. */
  lemma LeadJoin(m: Marker)
    ensures JoinSpaces(LeadWords(m)) == Lead(m)
    ensures forall k :: 0 <= k < |LeadWords(m)| ==> IsToken(LeadWords(m)[k])
  {
    forall k | 0 <= k < |LeadWords(m)|
      ensures IsToken(LeadWords(m)[k])
    {
      LeadWordsTokens(m, k);
    }
    match m
    case Efficiency => LeadJoinEfficiency();
    case MeanRes => LeadJoinMeanRes();
    case StdDev => LeadJoinStdDev();
    case WorstRes => LeadJoinWorstRes();
    case BestRes => LeadJoinBestRes();
  }

  lemma JoinSpacesSnoc(ws: seq<string>, v: string)
    requires ws != []
    ensures JoinSpaces(ws + [v]) == JoinSpaces(ws) + " " + v
    decreases |ws|
  {
    if |ws| == 1 {
      assert ws + [v] == [ws[0], v];
    } else {
      assert (ws + [v])[1..] == ws[1..] + [v];
      JoinSpacesSnoc(ws[1..], v);
    }
  }

  /** A statistic line splits into its lead words and the value. */
  lemma StatLineSplit(m: Marker, v: string)
    requires IsNumeral(v)
    ensures Split(StatLine(m, v)) == LeadWords(m) + [v]
  {
    var ws := LeadWords(m) + [v];
    LeadJoin(m);
    JoinSpacesSnoc(LeadWords(m), v);
    AppendAssoc(Lead(m), " ", v);
    AppendAssoc(Lead(m), " " + v, "\n");
    assert StatLine(m, v) == JoinSpaces(ws) + "\n";
    assert IsToken(v) by {
      forall i | 0 <= i < |v|
        ensures !IsSpace(v[i])
      {
        assert NumeralChar(v[i]);
      }
    }
    assert forall k :: 0 <= k < |ws| ==> IsToken(ws[k]) by {
      forall k | 0 <= k < |ws|
        ensures IsToken(ws[k])
      {
        if k < |LeadWords(m)| {
          assert ws[k] == LeadWords(m)[k];
        }
      }
    }
    SplitWordsLine(ws);
  }

  /** The value is the word a statistic line offers for its marker. */
  lemma StatLineWord(m: Marker, v: string)
    requires IsNumeral(v)
    ensures WordAt(StatLine(m, v), m) == Some(v)
  {
    StatLineSplit(m, v);
  }

  /** Characters, one per marker tried before the best resolution, that the
      labels of later markers lack: `Absent[k]` is in the pattern of
      `Chain[k]` but in no label of rank above `k`. */
  const Absent: string := "EMdW"

  lemma AbsentInPattern(k: nat)
    requires k < |Absent|
    ensures Absent[k] in Pattern(Chain[k])
  {
  }

  lemma StdDevLeadLacks()
    ensures 'E' !in Lead(StdDev) && 'M' !in Lead(StdDev)
  {
  }

  lemma WorstResLeadLacks()
    ensures 'E' !in Lead(WorstRes) && 'M' !in Lead(WorstRes) && 'd' !in Lead(WorstRes)
  {
  }

  lemma BestResLeadLacksEM()
    ensures 'E' !in Lead(BestRes) && 'M' !in Lead(BestRes)
  {
  }

  lemma BestResLeadLacksDW()
    ensures 'd' !in Lead(BestRes) && 'W' !in Lead(BestRes)
  {
  }

  /** The label of each marker lacks the characters of `Absent` below its
      rank. */
  lemma AbsentFromLead(m: Marker, k: nat)
    requires k < Rank(m)
    ensures Absent[k] in Pattern(Chain[k])
    ensures Absent[k] !in Lead(m)
  {
    AbsentInPattern(k);
    match m
    case Efficiency =>
    case MeanRes =>
    case StdDev => StdDevLeadLacks();
    case WorstRes => WorstResLeadLacks();
    case BestRes => BestResLeadLacksEM(); BestResLeadLacksDW();
  }

  /** Classifies a line by the pattern at position `at` and, for every
      marker tried before `m`, a character of its pattern the line lacks. */
  lemma MarkerByAbsence(line: string, m: Marker, at: nat, absent: seq<char>)
    requires at + |Pattern(m)| <= |line| && line[at..at + |Pattern(m)|] == Pattern(m)
    requires |absent| == Rank(m)
    requires forall k :: 0 <= k < |absent| ==> absent[k] in Pattern(Chain[k]) && absent[k] !in line
    ensures Classify(line) == Some(m)
  {
    forall m' | Rank(m') < Rank(m)
      ensures !Contains(line, Pattern(m'))
    {
      ChainRank(m');
      MissingCharNotContained(line, Pattern(m'), absent[Rank(m')]);
    }
    assert OccursAt(line, Pattern(m), at);
    ContainsIff(line, Pattern(m));
    ClassifiedAs(line, m);
  }

  /** The label of a statistic's line begins with that statistic's pattern. */
  lemma LeadStartsWithPattern(m: Marker, rest: string)
    ensures |Pattern(m)| <= |Lead(m) + rest|
    ensures (Lead(m) + rest)[..|Pattern(m)|] == Pattern(m)
  {
    assert |Pattern(m)| <= |Lead(m)|;
    assert Lead(m)[..|Pattern(m)|] == Pattern(m);
  }

  /** A label followed by text without the characters of `Absent` is
      classified as the label's statistic. */
  lemma LabelledLineMarker(m: Marker, tail: string)
    requires forall k :: 0 <= k < |Absent| ==> Absent[k] !in tail
    ensures Classify(Lead(m) + tail) == Some(m)
  {
    var line := Lead(m) + tail;
    var absent := Absent[..Rank(m)];
    LeadStartsWithPattern(m, tail);
    forall k | 0 <= k < |absent|
      ensures absent[k] in Pattern(Chain[k]) && absent[k] !in line
    {
      AbsentFromLead(m, k);
    }
    MarkerByAbsence(line, m, 0, absent);
  }

  /** A printed value brings none of the characters of `Absent`. */
  lemma ValueTailLacks(v: string)
    requires IsNumeral(v)
    ensures forall k :: 0 <= k < |Absent| ==> Absent[k] !in ValueTail(v)
  {
    forall k | 0 <= k < |Absent|
      ensures Absent[k] !in ValueTail(v)
    {
      NumeralLacks(v, Absent[k]);
    }
  }

  /** A statistic line is classified as its own statistic, whatever the
      printed value. */
  lemma StatLineMarker(m: Marker, v: string)
    requires IsNumeral(v)
    ensures Classify(StatLine(m, v)) == Some(m)
  {
    ValueTailLacks(v);
    LabelledLineMarker(m, ValueTail(v));
  }

  /** One statistic line other than the stop line, in front of the rest. */
  lemma ParseMarkerLine(line: string, w: string, rest: seq<string>)
    requires Classify(line).Some? && WordAt(line, Classify(line).value) == Some(w)
    requires !IsStop(line)
    ensures ParseLines([line] + rest) == Prepend([w], ParseLines(rest))
  {
    assert ([line] + rest)[0] == line;
    assert ([line] + rest)[1..] == rest;
  }

  /** The stop line in front of the rest of the log. */
  lemma ParseStopLine(line: string, w: string, rest: seq<string>)
    requires IsStop(line) && WordAt(line, BestRes) == Some(w)
    ensures ParseLines([line] + rest) == Success([w])
  {
    assert ([line] + rest)[0] == line;
    assert ([line] + rest)[1..] == rest;
  }

  /** A statistic line in front of the rest of the log contributes its value. */
  lemma ParseStatLine(m: Marker, v: string, rest: seq<string>)
    requires IsNumeral(v)
    ensures m != BestRes ==> ParseLines([StatLine(m, v)] + rest) == Prepend([v], ParseLines(rest))
    ensures m == BestRes ==> ParseLines([StatLine(m, v)] + rest) == Success([v])
  {
    StatLineMarker(m, v);
    StatLineWord(m, v);
    if m == BestRes {
      ParseStopLine(StatLine(m, v), v, rest);
    } else {
      ParseMarkerLine(StatLine(m, v), v, rest);
    }
  }

  /** The statistic lines from position `k` of the chain on, followed by
      anything, give the values from position `k` on. */
  lemma {:induction false} StatLinesFrom(vs: seq<string>, k: nat, rest: seq<string>)
    requires |vs| == |Chain| && k < |Chain|
    requires forall j :: 0 <= j < |vs| ==> IsNumeral(vs[j])
    ensures ParseLines(StatLines(vs)[k..] + rest) == Success(vs[k..])
    decreases |Chain| - k
  {
    var ls := StatLines(vs);
    var tail := ls[k + 1..] + rest;
    SliceCons(ls, k, rest);
    assert ls[k] == StatLine(Chain[k], vs[k]);
    if k + 1 < |Chain| {
      ChainIndex(k);
      ParseStatLine(Chain[k], vs[k], tail);
      StatLinesFrom(vs, k + 1, rest);
      SliceCons(vs, k, []);
      assert vs[k..] + [] == vs[k..] && vs[k + 1..] + [] == vs[k + 1..];
    } else {
      ParseStatLine(BestRes, vs[k], tail);
      assert vs[k..] == [vs[k]];
    }
  }

  lemma SliceCons<T>(s: seq<T>, k: nat, rest: seq<T>)
    requires k < |s|
    ensures s[k..] + rest == [s[k]] + (s[k + 1..] + rest)
  {
  }

  lemma ChainIndex(k: nat)
    requires k < |Chain|
    ensures Rank(Chain[k]) == k
  {
  }

  /** Lines without markers in front of the log have no effect. */
  lemma {:induction false} UnmarkedPrefixIgnored(pre: seq<string>, lines: seq<string>)
    requires forall j :: 0 <= j < |pre| ==> Classify(pre[j]).None?
    ensures ParseLines(pre + lines) == ParseLines(lines)
  {
    if pre != [] {
      assert (pre + lines)[0] == pre[0];
      assert Classify(pre[0]).None?;
      assert (pre + lines)[1..] == pre[1..] + lines;
      UnmarkedPrefixIgnored(pre[1..], lines);
    } else {
      assert pre + lines == lines;
    }
  }

  /** A well-formed log: unmarked lines, the five statistic lines in chain
      order, then anything. The scan returns exactly the five printed
      values, and nothing after the best-resolution line is read. */
  lemma WellFormedLog(pre: seq<string>, vs: seq<string>, rest: seq<string>)
    requires forall j :: 0 <= j < |pre| ==> Classify(pre[j]).None?
    requires |vs| == |Chain|
    requires forall j :: 0 <= j < |vs| ==> IsNumeral(vs[j])
    ensures ParseLines(pre + StatLines(vs) + rest) == Success(vs)
  {
    StatLinesFrom(vs, 0, rest);
    assert StatLines(vs)[0..] == StatLines(vs);
    assert vs[0..] == vs;
    assert pre + StatLines(vs) + rest == pre + (StatLines(vs) + rest);
    UnmarkedPrefixIgnored(pre, StatLines(vs) + rest);
  }

  /** Values come back in line order, not marker order: a best-resolution
      line before an efficiency line ends the scan with only the best
      resolution. */
  lemma LineOrderExample(best: string, eff: string)
    requires IsNumeral(best) && IsNumeral(eff)
    ensures ParseLines([StatLine(BestRes, best), StatLine(Efficiency, eff)]) == Success([best])
  {
    ParseStatLine(BestRes, best, [StatLine(Efficiency, eff)]);
    assert [StatLine(BestRes, best)] + [StatLine(Efficiency, eff)]
        == [StatLine(BestRes, best), StatLine(Efficiency, eff)];
  }

  /** A statistic label with no value after it raises IndexError when the
      scan reaches it. */
  lemma ShortLineExample(m: Marker, rest: seq<string>)
    ensures ParseLines([Lead(m) + "\n"] + rest) == Failure(IndexError)
  {
    var line := Lead(m) + "\n";
    LeadJoin(m);
    SplitWordsLine(LeadWords(m));
    LabelledLineMarker(m, "\n");
    assert ([line] + rest)[0] == line;
  }
}

=== FILE: particles.dfy ===
/** What the plugin reads from one particle of the input set: the X size of
    its image (the box size handed to cryoEF) and the Euler triple that
    `geometryFromMatrix` derives from its alignment matrix. The matrix and the
    derivation are not part of this model; the triple is taken as given. */
module Particles {

  datatype EulerAngles = EulerAngles(rot: real, tilt: real, psi: real)

  datatype Particle = Particle(xDim: int, angles: EulerAngles)
}

=== FILE: protocol_summary.dfy ===
/** `_summary` of the protocol: once the output volumes exist it re-reads
    cryoEF's log through `parseOutput`, converts the five words to floats
    and unpacks exactly five of them into labelled lines. Converting a word
    (`float`) and printing a value (`"%0.2f"`) are passed in as functions. */
module ProtocolSummary {

  import opened Results
  import opened Text
  import opened Files
  import opened LogParser

  /** The exceptions `_summary` lets escape. */
  datatype SummaryError =
    | LogIndexError             // IndexError from the scan of the log
    | FloatError(word: string)  // float() rejects a parsed word (ValueError)
    | UnpackError(count: nat)   // not exactly five values to unpack (ValueError)

  const NotReady: string := "Output is not ready yet."

  /** The path `_summary` reads the log from. */
  function SummaryLogPath(extraDir: string): (path: string)
    ensures path == FileName(extraDir, OutputLog)
  {
    ExtraPath(extraDir, "input_angles.log")
  }

  /** `map(float, words)` consumed by `list(...)`: every word converted in
      order, failing at the first word `toFloat` rejects. */
  function ToFloats<F>(words: seq<string>, toFloat: string -> Option<F>): (r: Result<seq<F>, SummaryError>)
    ensures r.Success? <==> forall k :: 0 <= k < |words| ==> toFloat(words[k]).Some?
    ensures r.Success? ==> |r.value| == |words|
    ensures r.Success? ==> forall k :: 0 <= k < |words| ==> r.value[k] == toFloat(words[k]).value
    ensures r.Failure? ==>
      exists k :: 0 <= k < |words| && r.error == FloatError(words[k])
                  && toFloat(words[k]).None? && forall j :: 0 <= j < k ==> toFloat(words[j]).Some?
  {
    if words == [] then Success([])
    else match toFloat(words[0])
      case None => Failure(FloatError(words[0]))
      case Some(x) =>
        match ToFloats(words[1..], toFloat)
        case Failure(e) =>
          var k :| 0 <= k < |words[1..]| && e == FloatError(words[1..][k])
            && toFloat(words[1..][k]).None? && forall j :: 0 <= j < k ==> toFloat(words[1..][j]).Some?;
          assert e == FloatError(words[k + 1]);
          Failure(e)
        case Success(xs) => Success([x] + xs)
  }

  /** The text in front of a statistic's value in the summary. */
  function ReportLabel(m: Marker): string {
    match m
    // One literal in the source; written as two so that the verifier can
    // look at its first character.
    case Efficiency => "Efficiency" + " of the orientation distribution: *"
    case MeanRes => "Mean PSF resolution: *"
    case StdDev => "Standard deviation: *"
    case WorstRes => "Worst PSF resolution: *"
    case BestRes => "Best PSF resolution: *"
  }

  /** The text after a statistic's value: resolutions are in Angstrom, the
      efficiency has no unit. */
  function ReportUnit(m: Marker): string {
    if m == Efficiency then "*" else " A*"
  }

  /** The summary line for statistic `m` with value `v`. */
  function ReportLine<F>(m: Marker, v: F, show: F -> string): string {
    ReportLabel(m) + show(v) + ReportUnit(m)
  }

  /** The five labelled lines for the unpacked values: the k-th value of the
      unpack is reported under the k-th statistic of the chain. */
  function ReportLines<F>(eff: F, meanRes: F, stdev: F, worstRes: F, bestRes: F, show: F -> string)
    : (r: seq<string>)
    ensures |r| == |Chain|
    ensures forall k :: 0 <= k < |Chain| ==>
      r[k] == ReportLine(Chain[k], [eff, meanRes, stdev, worstRes, bestRes][k], show)
  {
    [ ReportLine(Efficiency, eff, show),
      ReportLine(MeanRes, meanRes, show),
      ReportLine(StdDev, stdev, show),
      ReportLine(WorstRes, worstRes, show),
      ReportLine(BestRes, bestRes, show) ]
  }

  /** `_summary`. `hasOutput` says whether the run registered its output
      volume; `log` is the content of the log file, `None` if it is missing. */
  function Summary<F>(hasOutput: bool, log: Option<seq<string>>, toFloat: string -> Option<F>, show: F -> string)
    : (r: Result<seq<string>, SummaryError>)
    ensures !hasOutput ==> r == Success([NotReady])
    ensures hasOutput && log.None? ==> r == Failure(UnpackError(0))
    ensures hasOutput ==>
      (r.Success? <==>
        && ParseOutput(log).Success?
        && |ParseOutput(log).value| == 5
        && forall k :: 0 <= k < 5 ==> toFloat(ParseOutput(log).value[k]).Some?)
    ensures hasOutput && r.Success? ==>
      var ws := ParseOutput(log).value;
      r.value == ReportLines(toFloat(ws[0]).value, toFloat(ws[1]).value, toFloat(ws[2]).value,
                             toFloat(ws[3]).value, toFloat(ws[4]).value, show)
    ensures hasOutput && ParseOutput(log).Failure? ==> r == Failure(LogIndexError)
    ensures hasOutput && ParseOutput(log).Success? ==>
      var ws := ParseOutput(log).value;
      forall k :: 0 <= k < |ws| && toFloat(ws[k]).None? && (forall j :: 0 <= j < k ==> toFloat(ws[j]).Some?)
        ==> r == Failure(FloatError(ws[k]))
    ensures hasOutput && ParseOutput(log).Success? && |ParseOutput(log).value| != 5
      && (forall k :: 0 <= k < |ParseOutput(log).value| ==> toFloat(ParseOutput(log).value[k]).Some?)
      ==> r == Failure(UnpackError(|ParseOutput(log).value|))
  {
    if !hasOutput then Success([NotReady])
    else match ParseOutput(log)
      case Failure(_) => Failure(LogIndexError)
      case Success(words) =>
        match ToFloats(words, toFloat)
        case Failure(e) => Failure(e)
        case Success(vs) =>
          if |vs| != 5 then Failure(UnpackError(|vs|))
          else Success(ReportLines(vs[0], vs[1], vs[2], vs[3], vs[4], show))
  }

  // ---------------------------------------------------------------- lemmas

  /** A summary line tells which statistic it reports: the labels of
      different statistics differ already in their first character. */
  lemma ReportLineNamesStatistic<F>(m1: Marker, m2: Marker, x: F, y: F, show: F -> string)
    ensures ReportLine(m1, x, show) == ReportLine(m2, y, show) ==> m1 == m2
  {
    var l1, l2 := ReportLine(m1, x, show), ReportLine(m2, y, show);
    assert l1[0] == ReportLabel(m1)[0];
    assert l2[0] == ReportLabel(m2)[0];
    LabelInitial(m1);
    LabelInitial(m2);
  }

  /** The first character of each statistic's label. */
  function Initial(m: Marker): char {
    match m
    case Efficiency => 'E'
    case MeanRes => 'M'
    case StdDev => 'S'
    case WorstRes => 'W'
    case BestRes => 'B'
  }

  lemma LabelInitial(m: Marker)
    ensures ReportLabel(m)[0] == Initial(m)
  {
    match m
    case Efficiency =>
    case MeanRes =>
    case StdDev =>
    case WorstRes =>
    case BestRes =>
  }

  /** A well-formed cryoEF log whose printed values all convert gives the
      five report lines, in chain order. */
  lemma CompleteLogSummary(pre: seq<string>, vs: seq<string>, rest: seq<string>,
                            toFloat: string -> Option<real>, show: real -> string)
    requires forall j :: 0 <= j < |pre| ==> Classify(pre[j]).None?
    requires |vs| == |Chain|
    requires forall j :: 0 <= j < |vs| ==> IsNumeral(vs[j]) && toFloat(vs[j]).Some?
    ensures Summary(true, Some(pre + StatLines(vs) + rest), toFloat, show) == Success(ReportLines(
      toFloat(vs[0]).value, toFloat(vs[1]).value, toFloat(vs[2]).value,
      toFloat(vs[3]).value, toFloat(vs[4]).value, show))
  {
    WellFormedLog(pre, vs, rest);
  }

  /** In the report of a well-formed log, each value cryoEF printed on a
      statistic's line appears under that statistic's own label. */
  lemma CompleteLogLabels(pre: seq<string>, vs: seq<string>, rest: seq<string>,
                          toFloat: string -> Option<real>, show: real -> string)
    requires forall j :: 0 <= j < |pre| ==> Classify(pre[j]).None?
    requires |vs| == |Chain|
    requires forall j :: 0 <= j < |vs| ==> IsNumeral(vs[j]) && toFloat(vs[j]).Some?
    ensures var r := Summary(true, Some(pre + StatLines(vs) + rest), toFloat, show);
      r.Success? && |r.value| == |Chain| &&
      forall k :: 0 <= k < |Chain| ==>
        StatLines(vs)[k] == StatLine(Chain[k], vs[k]) &&
        r.value[k] == ReportLine(Chain[k], toFloat(vs[k]).value, show)
  {
    CompleteLogSummary(pre, vs, rest, toFloat, show);
    ConvertedReportLines(vs, toFloat, show);
  }

  /** The report of five converted values puts the k-th under the k-th
      statistic's label. */
  lemma ConvertedReportLines(vs: seq<string>, toFloat: string -> Option<real>, show: real -> string)
    requires |vs| == |Chain|
    requires forall j :: 0 <= j < |vs| ==> toFloat(vs[j]).Some?
    ensures forall k :: 0 <= k < |Chain| ==>
      ReportLines(toFloat(vs[0]).value, toFloat(vs[1]).value, toFloat(vs[2]).value,
                  toFloat(vs[3]).value, toFloat(vs[4]).value, show)[k]
        == ReportLine(Chain[k], toFloat(vs[k]).value, show)
  {
    var us := [toFloat(vs[0]).value, toFloat(vs[1]).value, toFloat(vs[2]).value,
               toFloat(vs[3]).value, toFloat(vs[4]).value];
    assert forall k :: 0 <= k < |Chain| ==> us[k] == toFloat(vs[k]).value;
  }

  /** A log whose best-resolution line comes first parses to one value, and
      `_summary` fails to unpack it, although the efficiency follows. */
  lemma EarlyBestLineSummary(best: string, eff: string,
                              toFloat: string -> Option<real>, show: real -> string)
    requires IsNumeral(best) && IsNumeral(eff)
    requires toFloat(best).Some?
    ensures Summary(true, Some([StatLine(BestRes, best), StatLine(Efficiency, eff)]), toFloat, show)
      == Failure(UnpackError(1))
  {
    LineOrderExample(best, eff);
  }
}

=== FILE: results.dfy ===
/** Failure-carrying values shared by every module of the model: an optional
    value (a Python `None` or a real object) and the outcome of an operation
    that can raise (its value, or the exception it raises). */
module Results {

  datatype Option<+T> = None | Some(value: T)

  datatype Result<+R, +E> = Success(value: R) | Failure(error: E)
}

=== FILE: text.dfy ===
/** The handful of Python string primitives the plugin relies on:
    `str.split()` without arguments, the substring test `pat in s`,
    `' '.join(...)`, iteration over the lines of a text file, and `str(int)`. */
module Text {

  import opened Results

  /** Python's `str.isspace` for one character: the characters `str.split()`
      with no argument treats as separators. */
  predicate IsSpace(c: char) {
    var n := c as int;
    || (9 <= n <= 13)          // \t \n \v \f \r
    || (28 <= n <= 32)         // \x1c-\x1f and ' '
    || n == 0x85 || n == 0xA0 || n == 0x1680
    || (0x2000 <= n <= 0x200A)
    || n == 0x2028 || n == 0x2029 || n == 0x202F || n == 0x205F || n == 0x3000
  }

  /** A word `str.split()` can return: non-empty and free of separators. */
  predicate IsToken(s: string) {
    |s| > 0 && forall i :: 0 <= i < |s| ==> !IsSpace(s[i])
  }

  /** Length of the run of non-separator characters that starts `s`. */
  function WordLength(s: string): (n: nat)
    ensures n <= |s|
    ensures forall i :: 0 <= i < n ==> !IsSpace(s[i])
    ensures n < |s| ==> IsSpace(s[n])
  {
    if s == [] || IsSpace(s[0]) then 0 else 1 + WordLength(s[1..])
  }

  /** `s.split()`: the maximal runs of non-separator characters, in order;
      leading, trailing and repeated separators produce no empty words. */
  function Split(s: string): (r: seq<string>)
    ensures |r| <= |s|
    ensures forall k :: 0 <= k < |r| ==> IsToken(r[k])
    decreases |s|
  {
    if s == [] then []
    else if IsSpace(s[0]) then Split(s[1..])
    else
      var n := WordLength(s);
      [s[..n]] + Split(s[n..])
  }

  /** `' '.join(ts)`. */
  function JoinSpaces(ts: seq<string>): string {
    if ts == [] then ""
    else if |ts| == 1 then ts[0]
    else ts[0] + " " + JoinSpaces(ts[1..])
  }

  /** `pat` occurs in `s` starting at position `i`. */
  ghost predicate OccursAt(s: string, pat: string, i: nat) {
    i + |pat| <= |s| && s[i..i + |pat|] == pat
  }

  /** Python's `pat in s` for strings. The empty pattern occurs everywhere. */
  function Contains(s: string, pat: string): bool
    decreases |s|
  {
    (|pat| <= |s| && s[..|pat|] == pat) || (s != [] && Contains(s[1..], pat))
  }

  /** Position of the first newline of `s`, or `|s|` when there is none. */
  function NewlineIndex(s: string): (k: nat)
    ensures k <= |s|
    ensures forall i :: 0 <= i < k ==> s[i] != '\n'
    ensures k < |s| ==> s[k] == '\n'
  {
    if s == [] || s[0] == '\n' then 0 else 1 + NewlineIndex(s[1..])
  }

  /** What a Python text-mode read returns for the raw content `s` of a file
      (universal newlines): `\r\n` and a lone `\r` each become `\n`. */
  function ReadText(s: string): (r: string)
    ensures |r| <= |s|
    ensures '\r' !in r
    decreases |s|
  {
    if s == [] then []
    else if s[0] == '\r' then
      "\n" + ReadText(if |s| > 1 && s[1] == '\n' then s[2..] else s[1..])
    else [s[0]] + ReadText(s[1..])
  }

  /** The lines `for line in f` yields from text already read by `ReadText`:
      each ends with its newline, except possibly the last one. */
  function SplitLines(s: string): (r: seq<string>)
    ensures forall k :: 0 <= k < |r| ==> r[k] != []
    decreases |s|
  {
    if s == [] then []
    else
      var k := NewlineIndex(s);
      if k == |s| then [s] else [s[..k + 1]] + SplitLines(s[k + 1..])
  }

  /** A complete line: exactly one newline, at its end. */
  predicate IsLine(s: string) {
    |s| > 0 && s[|s| - 1] == '\n' && forall i :: 0 <= i < |s| - 1 ==> s[i] != '\n'
  }

  function Concat(ls: seq<string>): string {
    if ls == [] then "" else ls[0] + Concat(ls[1..])
  }

  /** A digit character for `0 <= d < 10`. */
  function DigitChar(d: nat): char
    requires d < 10
  {
    "0123456789"[d]
  }

  predicate IsDigit(c: char) {
    '0' <= c <= '9'
  }

  /** Decimal digits of `n` without leading zeros (Python `str` of a
      non-negative `int`). */
  function NatDigits(n: nat): (r: string)
    ensures |r| > 0
    ensures forall i :: 0 <= i < |r| ==> IsDigit(r[i])
    decreases n
  {
    if n < 10 then [DigitChar(n)] else NatDigits(n / 10) + [DigitChar(n % 10)]
  }

  /** Python `str(i)` for an `int`. */
  function IntToString(i: int): string {
    if i < 0 then "-" + NatDigits(-i) else NatDigits(i)
  }

  /** The number a string of decimal digits denotes. */
  function DigitsValue(s: string): nat
    requires forall i :: 0 <= i < |s| ==> IsDigit(s[i])
  {
    if s == [] then 0
    else
      assert IsDigit(s[|s| - 1]);
      10 * DigitsValue(s[..|s| - 1]) + (s[|s| - 1] as int - '0' as int)
  }

  /** Reads back exactly the texts `IntToString` writes: an optional `-`
      and decimal digits. Unlike Python's `int`, it rejects signs such as
      `+`, surrounding whitespace and `_` separators. */
  function StringToInt(s: string): Option<int>
  {
    if |s| > 0 && forall i :: 0 <= i < |s| ==> IsDigit(s[i]) then Some(DigitsValue(s))
    else if |s| > 1 && s[0] == '-' && forall i :: 1 <= i < |s| ==> IsDigit(s[i]) then
      var v: int := DigitsValue(s[1..]);
      Some(-v)
    else None
  }

  // ---------------------------------------------------------------- lemmas

  /** `Contains` is substring occurrence. */
  lemma {:induction false} ContainsIff(s: string, pat: string)
    ensures Contains(s, pat) <==> exists i: nat :: OccursAt(s, pat, i)
    decreases |s|
  {
    if |pat| <= |s| && s[..|pat|] == pat {
      assert OccursAt(s, pat, 0);
    } else if s == [] {
    } else {
      ContainsIff(s[1..], pat);
      if exists i: nat :: OccursAt(s, pat, i) {
        var i: nat :| OccursAt(s, pat, i);
        assert i != 0;
        assert s[1..][i - 1..i - 1 + |pat|] == s[i..i + |pat|];
        assert OccursAt(s[1..], pat, i - 1);
      }
      if exists j: nat :: OccursAt(s[1..], pat, j) {
        var j: nat :| OccursAt(s[1..], pat, j);
        assert s[1..][j..j + |pat|] == s[j + 1..j + 1 + |pat|];
        assert OccursAt(s, pat, j + 1);
      }
    }
  }

  /** A pattern with a character the string lacks does not occur in it. */
  lemma MissingCharNotContained(s: string, pat: string, c: char)
    requires c in pat && c !in s
    ensures !Contains(s, pat)
  {
    ContainsIff(s, pat);
    forall i: nat
      ensures !OccursAt(s, pat, i)
    {
      if i + |pat| <= |s| {
        var j :| 0 <= j < |pat| && pat[j] == c;
        assert s[i + j] in s;
        assert s[i..i + |pat|][j] == s[i + j];
      }
    }
  }

  lemma {:induction false} WordLengthOfToken(t: string, rest: string)
    requires IsToken(t)
    requires rest == [] || IsSpace(rest[0])
    ensures WordLength(t + rest) == |t|
    decreases |t|
  {
    var s := t + rest;
    assert s[0] == t[0];
    if |t| > 1 {
      assert s[1..] == t[1..] + rest;
      WordLengthOfToken(t[1..], rest);
    } else {
      assert s[1..] == rest;
    }
  }

  /** A word followed by a separator (or nothing) splits off as the first word. */
  lemma SplitToken(t: string, rest: string)
    requires IsToken(t)
    requires rest == [] || IsSpace(rest[0])
    ensures Split(t + rest) == [t] + Split(rest)
  {
    var s := t + rest;
    WordLengthOfToken(t, rest);
    assert s[0] == t[0];
    assert s[..|t|] == t;
    assert s[|t|..] == rest;
  }

  lemma SplitSpace(x: string)
    ensures Split(" " + x) == Split(x)
  {
    assert (" " + x)[1..] == x;
  }

  /** `' '.join` of words and `split()` are inverse: joining words with single
      spaces and splitting again gives back exactly those words. */
  lemma {:induction false} SplitJoin(ts: seq<string>)
    requires forall k :: 0 <= k < |ts| ==> IsToken(ts[k])
    ensures Split(JoinSpaces(ts)) == ts
  {
    if ts == [] {
    } else if |ts| == 1 {
      SplitToken(ts[0], "");
      assert ts[0] + "" == ts[0];
    } else {
      var rest := JoinSpaces(ts[1..]);
      assert JoinSpaces(ts) == ts[0] + (" " + rest);
      SplitToken(ts[0], " " + rest);
      SplitSpace(rest);
      SplitJoin(ts[1..]);
      assert [ts[0]] + ts[1..] == ts;
    }
  }

  lemma {:induction false} WordLengthAppendSpace(x: string, c: char)
    requires IsSpace(c)
    ensures WordLength(x + [c]) == WordLength(x)
    decreases |x|
  {
    if x == [] {
    } else {
      assert (x + [c])[0] == x[0];
      assert (x + [c])[1..] == x[1..] + [c];
      WordLengthAppendSpace(x[1..], c);
    }
  }

  /** A trailing separator (the newline of a line read from a file) does not
      change the words. */
  lemma {:induction false} SplitAppendSpace(x: string, c: char)
    requires IsSpace(c)
    ensures Split(x + [c]) == Split(x)
    decreases |x|
  {
    var s := x + [c];
    if x == [] {
      assert s[1..] == [];
    } else if IsSpace(x[0]) {
      assert s[0] == x[0];
      assert s[1..] == x[1..] + [c];
      SplitAppendSpace(x[1..], c);
    } else {
      assert s[0] == x[0];
      WordLengthAppendSpace(x, c);
      var n := WordLength(x);
      assert s[..n] == x[..n];
      assert s[n..] == x[n..] + [c];
      SplitAppendSpace(x[n..], c);
    }
  }

  /** A line of words joined by single spaces, as written to a text file. */
  lemma SplitWordsLine(ts: seq<string>)
    requires forall k :: 0 <= k < |ts| ==> IsToken(ts[k])
    ensures Split(JoinSpaces(ts) + "\n") == ts
  {
    SplitAppendSpace(JoinSpaces(ts), '\n');
    SplitJoin(ts);
  }

  /** The pieces `SplitLines` produces put back together give the content. */
  lemma {:induction false} ConcatSplitLines(s: string)
    ensures Concat(SplitLines(s)) == s
    decreases |s|
  {
    if s != [] {
      var k := NewlineIndex(s);
      if k == |s| {
        assert Concat([s]) == s + Concat([]);
      } else {
        ConcatSplitLines(s[k + 1..]);
        var r := [s[..k + 1]] + SplitLines(s[k + 1..]);
        assert r[0] == s[..k + 1] && r[1..] == SplitLines(s[k + 1..]);
        assert s[..k + 1] + s[k + 1..] == s;
      }
    }
  }

  /** Content that is empty or ends with a newline: appending to it starts a
      fresh line. */
  predicate EndsLine(s: string) {
    s == [] || s[|s| - 1] == '\n'
  }

  /** The first newline is found where the content has one and none before. */
  lemma {:induction false} NewlineIndexAt(s: string, k: nat)
    requires k < |s| && s[k] == '\n'
    requires forall i :: 0 <= i < k ==> s[i] != '\n'
    ensures NewlineIndex(s) == k
    decreases k
  {
    if k > 0 {
      assert s[0] != '\n';
      NewlineIndexAt(s[1..], k - 1);
    }
  }

  /** A complete line at the front of the content is the first line read. */
  lemma SplitLinesLine(line: string, rest: string)
    requires IsLine(line)
    ensures SplitLines(line + rest) == [line] + SplitLines(rest)
  {
    var s := line + rest;
    var k := |line| - 1;
    assert s[k] == line[k];
    forall i | 0 <= i < k
      ensures s[i] != '\n'
    {
      assert s[i] == line[i];
    }
    NewlineIndexAt(s, k);
    assert s[..k + 1] == line;
    assert s[k + 1..] == rest;
  }

  /** Content ending a line has a newline. */
  lemma NewlineFound(a: string)
    requires a != [] && EndsLine(a)
    ensures NewlineIndex(a) < |a|
  {
    assert a[|a| - 1] == '\n';
  }

  /** Cutting content after its first newline gives a complete line, and the
      rest still ends a line. */
  lemma CutAfterNewline(a: string, k: nat)
    requires k < |a| && a[k] == '\n'
    requires forall i :: 0 <= i < k ==> a[i] != '\n'
    requires EndsLine(a)
    ensures IsLine(a[..k + 1])
    ensures EndsLine(a[k + 1..])
  {
    var line := a[..k + 1];
    forall i | 0 <= i < |line| - 1
      ensures line[i] != '\n'
    {
      assert line[i] == a[i];
    }
  }

  lemma AppendAssoc<T>(x: seq<T>, y: seq<T>, z: seq<T>)
    ensures (x + y) + z == x + (y + z)
  {
  }

  /** Content that ends a line is read as complete lines only. */
  lemma {:induction false} SplitLinesComplete(a: string)
    requires EndsLine(a)
    ensures forall j :: 0 <= j < |SplitLines(a)| ==> IsLine(SplitLines(a)[j])
    decreases |a|
  {
    if a != [] {
      NewlineFound(a);
      var k := NewlineIndex(a);
      CutAfterNewline(a, k);
      SplitLinesComplete(a[k + 1..]);
    }
  }

  /** Complete lines in front of any content are read first, unchanged. */
  lemma {:induction false} SplitLinesPrefix(ls: seq<string>, b: string)
    requires forall j :: 0 <= j < |ls| ==> IsLine(ls[j])
    ensures SplitLines(Concat(ls) + b) == ls + SplitLines(b)
  {
    if ls == [] {
      assert Concat(ls) + b == b;
    } else {
      var line, rest := ls[0], Concat(ls[1..]);
      AppendAssoc(line, rest, b);
      SplitLinesLine(line, rest + b);
      SplitLinesPrefix(ls[1..], b);
      AppendAssoc([line], ls[1..], SplitLines(b));
      assert [line] + ls[1..] == ls;
    }
  }

  /** Appending after complete lines adds lines and changes none of the old. */
  lemma SplitLinesAppend(a: string, b: string)
    requires EndsLine(a)
    ensures SplitLines(a + b) == SplitLines(a) + SplitLines(b)
  {
    SplitLinesComplete(a);
    ConcatSplitLines(a);
    SplitLinesPrefix(SplitLines(a), b);
  }

  /** Content made of complete lines is read back as exactly those lines. */
  lemma {:induction false} SplitLinesConcat(ls: seq<string>)
    requires forall k :: 0 <= k < |ls| ==> IsLine(ls[k])
    ensures SplitLines(Concat(ls)) == ls
  {
    if ls != [] {
      SplitLinesLine(ls[0], Concat(ls[1..]));
      SplitLinesConcat(ls[1..]);
      assert [ls[0]] + ls[1..] == ls;
    }
  }

  /** Every line but the last is complete, and no line has a newline before
      its end. */
  lemma {:induction false} SplitLinesShape(s: string)
    ensures forall k :: 0 <= k < |SplitLines(s)| - 1 ==> IsLine(SplitLines(s)[k])
    ensures forall k, i :: 0 <= k < |SplitLines(s)| && 0 <= i < |SplitLines(s)[k]| - 1 ==>
      SplitLines(s)[k][i] != '\n'
    decreases |s|
  {
    if s != [] {
      var k := NewlineIndex(s);
      if k < |s| {
        var line := s[..k + 1];
        assert forall i :: 0 <= i < |line| - 1 ==> line[i] == s[i];
        SplitLinesShape(s[k + 1..]);
        var r := SplitLines(s);
        assert r == [line] + SplitLines(s[k + 1..]);
        assert forall j :: 1 <= j < |r| ==> r[j] == SplitLines(s[k + 1..])[j - 1];
      }
    }
  }

  /** Content without carriage returns is read unchanged. */
  lemma {:induction false} ReadTextPlain(s: string)
    requires '\r' !in s
    ensures ReadText(s) == s
    decreases |s|
  {
    if s != [] {
      assert s[0] in s;
      assert forall x :: x in s[1..] ==> x in s;
      ReadTextPlain(s[1..]);
      assert [s[0]] + s[1..] == s;
    }
  }

  /** Reading distributes over a cut that does not separate a `\r` from the
      `\n` after it. */
  lemma {:induction false} ReadTextAppend(a: string, b: string)
    requires a == [] || a[|a| - 1] != '\r'
    ensures ReadText(a + b) == ReadText(a) + ReadText(b)
    decreases |a|
  {
    if a == [] {
      assert a + b == b;
    } else {
      var s := a + b;
      assert s[0] == a[0];
      if a[0] == '\r' {
        assert |a| > 1;
        assert s[1] == a[1];
        var n := if a[1] == '\n' then 2 else 1;
        assert s[n..] == a[n..] + b;
        ReadTextAppend(a[n..], b);
        AppendAssoc("\n", ReadText(a[n..]), ReadText(b));
      } else {
        assert s[1..] == a[1..] + b;
        ReadTextAppend(a[1..], b);
        AppendAssoc([a[0]], ReadText(a[1..]), ReadText(b));
      }
    }
  }

  /** A lone `\r`, like `\r\n`, ends a line when the file is read. */
  lemma CarriageReturnEndsLine(a: string, b: string)
    requires a == [] || a[|a| - 1] != '\r'
    ensures ReadText(a + "\r\n" + b) == ReadText(a + "\n" + b)
    ensures (b == [] || b[0] != '\n') ==> ReadText(a + "\r" + b) == ReadText(a + "\n" + b)
  {
    AppendAssoc(a, "\r\n", b);
    AppendAssoc(a, "\r", b);
    AppendAssoc(a, "\n", b);
    ReadTextAppend(a, "\r\n" + b);
    ReadTextAppend(a, "\r" + b);
    ReadTextAppend(a, "\n" + b);
    assert ("\r\n" + b)[2..] == b;
    assert ("\r" + b)[1..] == b;
    assert ("\n" + b)[1..] == b;
  }

  /** A character none of the pieces has is not in their concatenation. */
  lemma {:induction false} ConcatLacks(ls: seq<string>, c: char)
    requires forall k :: 0 <= k < |ls| ==> c !in ls[k]
    ensures c !in Concat(ls)
  {
    if ls != [] {
      ConcatLacks(ls[1..], c);
    }
  }

  lemma {:induction false} ConcatAppend(a: seq<string>, b: seq<string>)
    ensures Concat(a + b) == Concat(a) + Concat(b)
  {
    if a != [] {
      assert (a + b)[1..] == a[1..] + b;
      ConcatAppend(a[1..], b);
    } else {
      assert a + b == b;
    }
  }

  lemma {:induction false} DigitsValueNatDigits(n: nat)
    ensures DigitsValue(NatDigits(n)) == n
    decreases n
  {
    var r := NatDigits(n);
    if n < 10 {
      assert r[..0] == [];
    } else {
      DigitsValueNatDigits(n / 10);
      assert r[..|r| - 1] == NatDigits(n / 10);
    }
  }

  /** `str(i)` is one word: digits and a minus sign are not whitespace. */
  lemma IntToStringToken(i: int)
    ensures IsToken(IntToString(i))
  {
    var s := IntToString(i);
    var d := NatDigits(if i < 0 then -i else i);
    forall k | 0 <= k < |s|
      ensures !IsSpace(s[k])
    {
      if i < 0 && k > 0 {
        assert s[k] == d[k - 1];
      } else if i >= 0 {
        assert s[k] == d[k];
      }
    }
  }

  /** `str(i)` is one word, and reading it back gives `i`. */
  lemma IntToStringRoundTrip(i: int)
    ensures IsToken(IntToString(i))
    ensures StringToInt(IntToString(i)) == Some(i)
  {
    IntToStringToken(i);
    var s := IntToString(i);
    if i < 0 {
      var d := NatDigits(-i);
      DigitsValueNatDigits(-i);
      assert s[1..] == d;
      assert !IsDigit(s[0]);
      assert forall k :: 1 <= k < |s| ==> IsDigit(s[k]) by {
        forall k | 1 <= k < |s|
          ensures IsDigit(s[k])
        {
          assert s[k] == d[k - 1];
        }
      }
    } else {
      DigitsValueNatDigits(i);
    }
  }
}
